=== FILE: README.md ===
# ImageSorter, modelled in Dafny

ImageSorter walks a source directory and sorts photos and videos (`jpg`,
`avi`, `cr2`, `mov` and `mp4`) into `target/<year>/<Month name>/<yyyy_mm_dd>/`,
using the capture date found in the file's own metadata:

- Photos use their Exif tags. The exact `EXIF DateTimeOriginal` record is tried
  first. Otherwise the last key that contains `DateTimeOriginal` is used, with
  its value stripped.
- An `.avi` uses the tags of a sibling `.THM`/`.thm` preview when one exists.
- Other videos use the container's `creation_date`.

The date text is accepted in two layouts, `YYYY:MM:DD HH:MM:SS` and
`YYYY-MM-DD HH:MM:SS`. A file is copied only if no file of the same name is
already in its destination, and a preview is copied beside its video. A file
with no date gets a courtesy copy under `target/exif_problems/`, in a directory
that mirrors where it came from. The run counts processed, copied, skipped,
failed and undated files.

The model is split into modules that follow the parts of the program:

- `Text`, `Numerals`, `Paths` and `Dates`: the Python library behaviour the
  core relies on. This covers ASCII `lower`, `endswith`, `in` and `strip`;
  `str(int)` and zero padding; `posixpath` `join`, `basename`, `dirname` and
  `splitext`; and `strptime` for the two layouts together with `datetime`'s
  range checks.
- `Tags`: `get_create_date`, `get_pil_create_date` and the parsing tail of
  `get_hachoir_create_date`. A tag map is a sequence of (key, value) entries in
  the dictionary's iteration order.
- `Companions`: `has_thm_file`.
- `Layout`: the destination folder and the quarantine folder.
- `Discovery`: the extension filter that builds `fileList`.
- `Sorter`: the loop of `main`, in two forms. The specification functions
  `Step`, `RunFrom` and `Sort` say what a run does. The methods `ProcessFile`
  and `SortMedia` do it step by step and are proved equal to those functions.
  The filesystem is the set of existing file paths. `shutil.copy2`, the
  metadata readers and `os.makedirs` failures are oracles held in an `Env`
  value. Every copy is recorded in a log, so the lemmas can speak about all
  copies a run made.

## Model

| member | source | states |
|---|---|---|
| Numerals.Pad2 | src/imagesorter/imagesorter.py:347-354 | the month and day strings are two digits whose value is the number |
| Numerals.Pad2OfValue | src/imagesorter/imagesorter.py:347-354 | padding is the inverse of reading two digits back |
| Numerals.Pad4OfValue | src/imagesorter/imagesorter.py:119 | a four-digit year string is recovered from its value |
| Numerals.ValueOfDecimal | src/imagesorter/imagesorter.py:343 | reading `str(year)` back gives the year |
| Dates.ParseWith | src/imagesorter/imagesorter.py:189 | a parse that succeeds yields a valid calendar date and time |
| Dates.ParseWithExact | src/imagesorter/imagesorter.py:189 | one layout parses to `d` exactly when `d` is valid and the text is `d` rendered in that layout |
| Dates.NormalizeExact | src/imagesorter/imagesorter.py:187-194 | the colon layout is tried and then the dash layout; text parses to `d` exactly when it renders `d` in either layout |
| Tags.Lookup | src/imagesorter/imagesorter.py:180 | the key is absent exactly when no entry has it; otherwise the value is one stored under it |
| Tags.LastOriginalSpec | src/imagesorter/imagesorter.py:164-173 | the scan raises exactly when a matching key holds a tag record; it finds nothing exactly when no key matches; otherwise it returns the stripped value of the last matching key |
| Tags.ScanDateTimeOriginal | src/imagesorter/imagesorter.py:168-173 | the loop that reassigns its result equals the scan function |
| Tags.CreateDate | src/imagesorter/imagesorter.py:176-196 | any date returned is valid |
| Tags.ExactKeyDecides | src/imagesorter/imagesorter.py:179-180 | when `EXIF DateTimeOriginal` is a tag record, its text alone decides the date, in either layout |
| Tags.LastMatchDecides | src/imagesorter/imagesorter.py:181-183 | otherwise the last matching key's stripped text decides the date, in either layout |
| Tags.NoMatchingKeyNoDate | src/imagesorter/imagesorter.py:168-173 | with no key containing `DateTimeOriginal` there is no date |
| Tags.MatchingRecordNoDate | src/imagesorter/imagesorter.py:171 | a tag record under a non-exact matching key makes `strip` raise, so there is no date |
| Tags.RawCreateDate | src/imagesorter/imagesorter.py:179-185 | a tag record under `EXIF DateTimeOriginal` supplies its `.values`; there is no date text exactly when that record is missing and the scan raises or matches no key |
| Tags.ContainerDate | src/imagesorter/imagesorter.py:114-124 | any date read from the container text is valid |
| Tags.ContainerDateExact | src/imagesorter/imagesorter.py:114-124 | the container text yields `d` exactly when it is present and renders `d` in either layout |
| Companions.FindCompanion | src/imagesorter/imagesorter.py:199-212 | no companion exactly when neither `.THM` nor `.thm` exists; `.THM` wins when it exists; otherwise the `.thm` name and path are returned |
| Companions.CompanionBesideVideo | src/imagesorter/imagesorter.py:202-211 | the companion sits in the video's directory, its name is its basename, and it shares the video's stem |
| Companions.FindCompanionAgrees | src/imagesorter/imagesorter.py:207-208 | the answer depends only on whether the two candidate paths exist |
| Paths.Join | src/imagesorter/imagesorter.py:357 | an absolute second part replaces the first; otherwise the result starts with the first part and ends with the second as a whole name, with exactly one '/' inserted when the first part is non-empty and does not end in '/', and none otherwise |
| Paths.Dirname | src/imagesorter/imagesorter.py:320 | the directory is the path cut before its last name: a prefix ending no later than the last '/', with only '/' between its end and that name, trailing slashes dropped unless everything up to the name is slashes; it is empty exactly when the path has no '/' |
| Paths.Basename | src/imagesorter/imagesorter.py:319 | the name is everything after the last '/': it has no '/', ends the path, and starts where the last '/' ends |
| Paths.BasenameOfJoin | src/imagesorter/imagesorter.py:365 | joining a plain name onto any directory and taking the basename gives the name back |
| Paths.DirnameOfJoin | src/imagesorter/imagesorter.py:202-206 | joining a plain name onto a directory of dirname's shape and taking the dirname gives the directory back |
| Paths.Stem | src/imagesorter/imagesorter.py:204 | the stem is a prefix of the file name; a name without a dot is its own stem; whenever a non-dot character precedes some dot the stem is shorter than the name, and it then stops at the last dot and keeps a non-dot character before it |
| Layout.FolderName | src/imagesorter/imagesorter.py:356 | the folder name is a single non-empty path component |
| Layout.FolderNameRoundTrip | src/imagesorter/imagesorter.py:343-356 | `yyyy_mm_dd` reads back as the date's year, month and day |
| Layout.DestDir | src/imagesorter/imagesorter.py:357 | the destination lies strictly below the target and its last component is the folder name |
| Layout.DestDirComponents | src/imagesorter/imagesorter.py:357 | for every target the destination's last three components are the folder, the month name and the year, and above them is the directory of target joined with the year; for a target without a trailing '/' that is the target itself |
| Layout.SameDirSameDay | src/imagesorter/imagesorter.py:343-357 | two dates share a destination exactly when they fall on the same day |
| Layout.ProblemsDir | src/imagesorter/imagesorter.py:298 | exif_problems lies strictly below the target and does not end in '/'; its basename is `exif_problems`, and its dirname is the target itself when the target has dirname's shape |
| Layout.QuarantineDirAsWritten | src/imagesorter/imagesorter.py:397 | as written, a directory whose second character is '/' replaces the problems directory; otherwise the result lies below it |
| Layout.QuarantineDir | src/imagesorter/imagesorter.py:397 | corrected: the directory always lies below the problems directory and ends with the original directory stripped of its leading slashes |
| Layout.AsWrittenLeavesTarget | src/imagesorter/imagesorter.py:397 | as written, the quarantine directory for `./sub` under target `/target` is `/sub`, outside the target |
| Layout.AsWrittenDropsFirstLetter | src/imagesorter/imagesorter.py:397 | as written, the relative directory `photos/sub` is mirrored as `hotos/sub` |
| Layout.CorrectedKeepsRelative | src/imagesorter/imagesorter.py:397 | corrected, every relative directory such as `photos/sub` is mirrored whole, right below exif_problems |
| Layout.QuarantineAgreesOnAbsolute | src/imagesorter/imagesorter.py:397 | for an absolute directory with one leading slash, the corrected directory equals the one as written |
| Layout.QuarantineFileShape | src/imagesorter/imagesorter.py:397-405 | the corrected quarantine file is `exif_problems/<mirrored dir>/<name>` under the target |
| Layout.QuarantineSeparates | src/imagesorter/imagesorter.py:397-405 | same-named files from different directories get different quarantine paths |
| Discovery.MediaFiles | src/imagesorter/imagesorter.py:291-296 | the list holds exactly the walked paths whose lower-cased name ends in a listed extension |
| Discovery.MediaFilesAppend | src/imagesorter/imagesorter.py:292-296 | the filter keeps walk order, so it distributes over concatenation |
| Discovery.SelectMedia | src/imagesorter/imagesorter.py:291-296 | the appending loop builds the filtered list |
| Discovery.KindOf | src/imagesorter/imagesorter.py:323-327 | a file is an .avi exactly when its lower-cased name ends in `avi`, a movie exactly when it ends in `mov` or `mp4`, and a selected file that is neither is a `jpg` or `cr2` photo |
| Discovery.FilterExamples | src/imagesorter/imagesorter.py:217 | `endswith` has no dot, so `fooavi` matches; upper-case `JPG` matches; `THM` does not |
| Sorter.Resolve | src/imagesorter/imagesorter.py:319-340 | any date is valid; a photo is dated from its own EXIF tags; an `.avi` with the preview `has_thm_file` finds is dated from the preview's tags and carries that preview; a `.mov`/`.mp4` and an `.avi` without a preview are dated from the container |
| Sorter.CopyPrimary | src/imagesorter/imagesorter.py:365-377 | an existing destination adds one to skipCount and changes nothing else; otherwise exactly one copy is logged: a finished copy adds one to copyCount, an OSError one to exceptionCount, and an IOError changes no counter; the run is aborted exactly when it already was or that copy raised an IOError |
| Sorter.CopyCompanion | src/imagesorter/imagesorter.py:378-392 | the preview copy changes no counter; an existing destination changes nothing; otherwise exactly one copy is logged; the run is aborted exactly when it already was or that copy raised an IOError |
| Sorter.Quarantine | src/imagesorter/imagesorter.py:405-410 | the courtesy copy changes no counter and never ends the run; otherwise it behaves like the other copies |
| Sorter.FileDated | src/imagesorter/imagesorter.py:358-392 | the step-by-step copy of a dated file and its preview equals `Filed` |
| Sorter.FileUndated | src/imagesorter/imagesorter.py:394-410 | the step-by-step quarantine of an undated file, with the corrected quarantine directory, equals `Unfiled` |
| Sorter.ProcessFile | src/imagesorter/imagesorter.py:317-410 | one loop turn step by step, with the corrected quarantine directory, equals `Step` |
| Sorter.SortMedia | src/imagesorter/imagesorter.py:291-410 | the whole run step by step, with the corrected quarantine directory, equals `Sort` |
| Sorter.StepCountsOnce | src/imagesorter/imagesorter.py:317-396 | a turn adds one to processCount and one to exactly one outcome counter, unless an exception escapes; no counter decreases; an undated file adds one to processCount and nocreatedateCount and to nothing else, a dated one leaves nocreatedateCount alone |
| Sorter.EveryFileCountedOnce | src/imagesorter/imagesorter.py:306-416 | a run without an escaped exception processes every selected file, and the outcome counters sum to processCount |
| Sorter.CopiesNeverOverwrite | src/imagesorter/imagesorter.py:366-410 | every copy targets a file that neither existed before nor was written earlier in the run |
| Sorter.CopiesArePlaced | src/imagesorter/imagesorter.py:343-405 | every copy lands under the source's own name, in a dated folder or in the file's quarantine folder |
| Sorter.PreviewFollowsVideo | src/imagesorter/imagesorter.py:323-392 | an `.avi` dated through its preview gets the preview's date; in its folder the video copy and the preview copy go to different paths, the log gains at most those two attempts in that order, both when neither destination exists and the video copy finishes, and only the video attempt with the run aborted when the video copy raises an IOError |
| Sorter.FiledLog | src/imagesorter/imagesorter.py:363-392 | filing a video with its preview logs nothing, the video copy, the preview copy, or both in that order; both when neither destination exists and the video copy finishes; only the video copy, aborting, on an IOError |
| Sorter.ResolveAgrees | src/imagesorter/imagesorter.py:323-340 | a file's date depends on the existing files only through its two preview candidates |
| Sorter.SecondRunCopiesNothing | src/imagesorter/imagesorter.py:366-373 | a second run over a finished first run's output, whose walk selects the same media files, copies nothing, and skips every file the first run copied or skipped |
| Sorter.TargetInsideSourceCopiesAgain | src/imagesorter/imagesorter.py:291-296 | with the target inside the source, the first run's quarantine copy is a media file under the source, and a later run that walks it copies it again one level deeper |

## Left out

- Option parsing, `usage`, `version`, the log file and all logging, and the
  checks that the source and target exist (lines 215-289) are not modelled.
  They happen before any file is touched.
- The `-f` template is listed in the usage text but never implemented, so it is
  not modelled.
- Reading metadata is not modelled. `EXIF.process_file`, PIL's `_getexif` with
  the fallback in `get_exif_data`, and hachoir's parser are oracles in `Env`.
  They give a file's tag map and its container `creation_date` text, with
  `None` when there is no parser, no metadata or no item.
- `os.walk` is the `walked` sequence of file paths in walk order. The
  filesystem is a set of file paths. `os.path.isfile` is membership in that
  set.
- `shutil.copy2` is an oracle that returns whether the copy finished or raised.
  When it raised, the oracle says whether OSError or IOError and whether the
  destination file was left behind. Preserving timestamps and file contents is
  not modelled.
- `os.makedirs` is modelled only by whether it failed with an errno other than
  EEXIST. A failure ends the run, because the source re-raises it (lines
  300-305, 359-364, 399-404). Directories are not tracked otherwise.
- `strptime` is modelled with fixed-width numeric fields and single separators.
  Python also accepts one-digit fields and some extra whitespace, which the
  model does not.
- `lower()` is ASCII-only. This is enough for the extension check, because
  every listed extension is ASCII.
- `avionlycount` and `avithmcount` are counted but never reported, so they are
  not modelled.
- Sorter.SecondRunCopiesNothing: needs three more requirements. Every copy
  must finish. No copy of the first run may create a `.THM`/`.thm` candidate
  of a listed video; otherwise the second run could pick up a different
  preview date. The second walk must select the same media files as the
  first. `os.walk` runs again over the source, so this holds only when the
  target lies outside the source tree (and nothing else changed there).
  `Sorter.TargetInsideSourceCopiesAgain` shows the failure for a target
  inside the source.
- Sorter.CopiesNeverOverwrite: assumes that no regular file stands where a
  destination directory goes. The model has no directories, and every copy
  writes to the file inside its directory. In the source, a regular file
  named like a dated folder (say `target/2013/January/2013_01_13`) makes
  `makedirs` fail with EEXIST, which is ignored (lines 361-362). `isfile`
  of the file inside it is then false, and `shutil.copy2` writes onto that
  regular file. Lines 399-408 do the same for quarantine.
- Sorter.FileUndated: uses the corrected quarantine directory, not line 397's
  `orig_path[1:]`. For a relative source the two differ: `photos/sub` is
  mirrored as `hotos/sub` in the source, and as `photos/sub` in the model
  (see Findings).
- Sorter.ProcessFile: same difference as `Sorter.FileUndated` for undated
  files from a relative source.
- Sorter.SortMedia: same difference as `Sorter.FileUndated` for undated files
  from a relative source.
- The model follows the code on these points:
  - In Python 2, an IOError from `shutil.copy2` is not an `OSError`. It passes
    the `except OSError` at line 374 and ends the run.
  - The quarantine copy swallows every error (line 409) and counts nothing.
  - A failed `makedirs` is fatal (see above).
  - An undated file counts only in `nocreatedateCount`; a failed tag
    extraction has no counter of its own.

## Findings

| source | as written | input that shows it | evidently intended | confidence | as-written member | corrected member |
|---|---|---|---|---|---|---|
| src/imagesorter/imagesorter.py:397 | `join(problems_loc, orig_path[1:])` drops only the first character of the file's directory | source `.` and an undated `./sub/a.jpg`: `orig_path[1:]` is `/sub`, an absolute path, so `join` discards `target/exif_problems` and the copy goes to `/sub/a.jpg` | mirror the file's directory under `target/exif_problems`, as the quarantine does for an absolute source | not executed | Layout.AsWrittenLeavesTarget | Layout.QuarantineSeparates |
| src/imagesorter/imagesorter.py:397 | `orig_path[1:]` cuts the first character even from a relative directory | source `photos` and an undated `photos/sub/a.jpg`: the quarantine directory is `target/exif_problems/hotos/sub` | mirror `photos/sub` whole | not executed | Layout.AsWrittenDropsFirstLetter | Layout.CorrectedKeepsRelative |

`Layout.QuarantineDirAsWritten` is the code as written. Its contract shows
that a directory whose second character is '/' escapes the problems
directory. `Layout.QuarantineDir` removes every leading slash instead of one
character, and it is the version `Sorter` uses. `Layout.QuarantineAgreesOnAbsolute` shows that the two agree on
the absolute directories that `os.walk` produces from an absolute source.
`Layout.QuarantineFileShape` and `Layout.QuarantineSeparates` show that the
corrected path stays under the target and keeps apart same-named files from
different directories.

=== FILE: companion.dfy ===
/** has_thm_file: the preview file a camera writes beside a video, carrying
    the Exif capture time the video itself lacks. File existence is the set
    of existing file paths. */
module Companions {
  import opened Wrappers
  import opened Paths

  /** The companion's display name (stem + extension) and full path. */
  datatype Companion = Companion(name: string, path: string)

  /** The two spellings looked for, upper case first. */
  function CandidateName(video: string, upper: bool): string
  {
    Stem(Basename(video)) + (if upper then ".THM" else ".thm")
  }

  function CandidatePath(video: string, upper: bool): string
  {
    Join(Dirname(video), CandidateName(video, upper))
  }

  /** has_thm_file, with None for (False, '', ''). */
  function FindCompanion(video: string, files: set<string>): (r: Option<Companion>)
    ensures r.None? <==> CandidatePath(video, true) !in files && CandidatePath(video, false) !in files
    ensures CandidatePath(video, true) in files ==> r == Some(Companion(CandidateName(video, true), CandidatePath(video, true)))
    ensures CandidatePath(video, true) !in files && CandidatePath(video, false) in files ==>
      r == Some(Companion(CandidateName(video, false), CandidatePath(video, false)))
    ensures r.Some? ==> r.value.path in files
  {
    var upper := CandidatePath(video, true);
    var lower := CandidatePath(video, false);
    if upper !in files then
      if lower in files then Some(Companion(CandidateName(video, false), lower)) else None
    else Some(Companion(CandidateName(video, true), upper))
  }

  lemma CandidateNamePlain(video: string, upper: bool)
    ensures CandidateName(video, upper) != [] && NoSlash(CandidateName(video, upper))
  {
    var b := Basename(video);
    var s := Stem(b);
    assert forall i :: 0 <= i < |s| ==> s[i] == b[i];
  }

  lemma CandidateNameLastLetter(video: string, upper: bool)
    ensures var n := CandidateName(video, upper); n != [] && n[|n| - 1] == if upper then 'M' else 'm'
  {
  }

  /** The companion found lives in the video's own directory, its display
      name is its basename, and it shares the video's stem. */
  lemma CompanionBesideVideo(video: string, files: set<string>)
    requires FindCompanion(video, files).Some?
    ensures var c := FindCompanion(video, files).value;
      && Dirname(c.path) == Dirname(video)
      && Basename(c.path) == c.name
      && (c.name == Stem(Basename(video)) + ".THM" || c.name == Stem(Basename(video)) + ".thm")
  {
    var c := FindCompanion(video, files).value;
    var upper := c.name == CandidateName(video, true);
    CandidateNamePlain(video, upper);
    DirnameOfJoin(Dirname(video), c.name);
    BasenameOfJoin(Dirname(video), c.name);
  }

  /** has_thm_file looks at nothing but the two candidate paths. */
  lemma FindCompanionAgrees(video: string, a: set<string>, b: set<string>)
    requires CandidatePath(video, true) in a <==> CandidatePath(video, true) in b
    requires CandidatePath(video, false) in a <==> CandidatePath(video, false) in b
    ensures FindCompanion(video, a) == FindCompanion(video, b)
  {
  }
}

=== FILE: dates.dfy ===
/** Capture timestamps: the calendar checks of Python's datetime and the two
    strptime formats the sorter tries, '%Y:%m:%d %H:%M:%S' (the Exif 2.3
    DateTimeOriginal form) and '%Y-%m-%d %H:%M:%S'. */
module Dates {
  import opened Wrappers
  import opened Numerals

  datatype DateTime = DateTime(year: int, month: int, day: int, hour: int, minute: int, second: int)

  predicate IsLeapYear(y: int)
  {
    y % 4 == 0 && (y % 100 != 0 || y % 400 == 0)
  }

  function DaysInMonth(year: int, month: int): (n: int)
    requires 1 <= month <= 12
    ensures 28 <= n <= 31
    ensures n == 29 <==> month == 2 && IsLeapYear(year)
  {
    if month == 2 then (if IsLeapYear(year) then 29 else 28)
    else if month == 4 || month == 6 || month == 9 || month == 11 then 30
    else 31
  }

  /** The values datetime.datetime accepts (MINYEAR 1, MAXYEAR 9999); a
      parsed second of 60 or 61 is refused there too. */
  predicate Valid(d: DateTime)
  {
    && 1 <= d.year <= 9999
    && 1 <= d.month <= 12
    && 1 <= d.day <= DaysInMonth(d.year, d.month)
    && 0 <= d.hour < 24 && 0 <= d.minute < 60 && 0 <= d.second < 60
  }

  /** "YYYY" sep "MM" sep "DD HH:MM:SS" with the given pieces. */
  function Assemble(y: string, mo: string, d: string, h: string, mi: string, s: string, sep: char): string
  {
    y + [sep] + mo + [sep] + d + " " + h + ":" + mi + ":" + s
  }

  /** A string of exactly the fixed-width layout, digits where digits go. */
  predicate Shaped(s: string, sep: char)
  {
    && |s| == 19
    && AllDigits(s[0..4]) && s[4] == sep
    && AllDigits(s[5..7]) && s[7] == sep
    && AllDigits(s[8..10]) && s[10] == ' '
    && AllDigits(s[11..13]) && s[13] == ':'
    && AllDigits(s[14..16]) && s[16] == ':'
    && AllDigits(s[17..19])
  }

  lemma AssembleParts(y: string, mo: string, d: string, h: string, mi: string, s: string, sep: char)
    requires |y| == 4 && |mo| == 2 && |d| == 2 && |h| == 2 && |mi| == 2 && |s| == 2
    ensures var a := Assemble(y, mo, d, h, mi, s, sep);
      && |a| == 19 && a[0..4] == y && a[4] == sep && a[5..7] == mo && a[7] == sep
      && a[8..10] == d && a[10] == ' ' && a[11..13] == h && a[13] == ':'
      && a[14..16] == mi && a[16] == ':' && a[17..19] == s
  {
  }

  lemma ShapedIsAssembled(s: string, sep: char)
    requires Shaped(s, sep)
    ensures s == Assemble(s[0..4], s[5..7], s[8..10], s[11..13], s[14..16], s[17..19], sep)
  {
    var a := Assemble(s[0..4], s[5..7], s[8..10], s[11..13], s[14..16], s[17..19], sep);
    AssembleParts(s[0..4], s[5..7], s[8..10], s[11..13], s[14..16], s[17..19], sep);
    assert forall i :: 0 <= i < 19 ==> a[i] == s[i] by {
      forall i | 0 <= i < 19 ensures a[i] == s[i] {
        if i < 4 { assert a[i] == a[0..4][i]; }
        else if 5 <= i < 7 { assert a[i] == a[5..7][i - 5]; }
        else if 8 <= i < 10 { assert a[i] == a[8..10][i - 8]; }
        else if 11 <= i < 13 { assert a[i] == a[11..13][i - 11]; }
        else if 14 <= i < 16 { assert a[i] == a[14..16][i - 14]; }
        else if 17 <= i { assert a[i] == a[17..19][i - 17]; }
      }
    }
  }

  /** The six numeric fields of a shaped string. */
  function Fields(s: string, sep: char): DateTime
    requires Shaped(s, sep)
  {
    DateTime(Value(s[0..4]), Value(s[5..7]), Value(s[8..10]),
             Value(s[11..13]), Value(s[14..16]), Value(s[17..19]))
  }

  /** datetime.strptime(s, fmt) with fmt '%Y' sep '%m' sep '%d %H:%M:%S',
      with None for the ValueError it raises. */
  function ParseWith(s: string, sep: char): (r: Option<DateTime>)
    ensures r.Some? ==> Valid(r.value)
  {
    if Shaped(s, sep) && Valid(Fields(s, sep)) then Some(Fields(s, sep)) else None
  }

  /** The canonical rendering of a date in the layout ParseWith reads. */
  function Render(d: DateTime, sep: char): (s: string)
    requires Valid(d)
    ensures Shaped(s, sep)
  {
    var s := Assemble(Pad4(d.year), Pad2(d.month), Pad2(d.day), Pad2(d.hour), Pad2(d.minute), Pad2(d.second), sep);
    AssembleParts(Pad4(d.year), Pad2(d.month), Pad2(d.day), Pad2(d.hour), Pad2(d.minute), Pad2(d.second), sep);
    s
  }

  /** The parser accepts exactly the renderings of valid dates, and reads
      each one back as the date it renders. */
  lemma ParseWithExact(s: string, sep: char, d: DateTime)
    ensures ParseWith(s, sep) == Some(d) <==> Valid(d) && s == Render(d, sep)
  {
    if Valid(d) && s == Render(d, sep) {
      AssembleParts(Pad4(d.year), Pad2(d.month), Pad2(d.day), Pad2(d.hour), Pad2(d.minute), Pad2(d.second), sep);
      assert Fields(s, sep) == d;
    }
    if ParseWith(s, sep) == Some(d) {
      ShapedIsAssembled(s, sep);
      Pad4OfValue(s[0..4]);
      Pad2OfValue(s[5..7]);
      Pad2OfValue(s[8..10]);
      Pad2OfValue(s[11..13]);
      Pad2OfValue(s[14..16]);
      Pad2OfValue(s[17..19]);
    }
  }

  /** The normalisation of get_create_date and of the container-metadata
      path: try the Exif colon layout, then the hyphen layout; anything
      else is "no date". */
  function Normalize(s: string): (r: Option<DateTime>)
  {
    match ParseWith(s, ':')
    case Some(d) => Some(d)
    case None => ParseWith(s, '-')
  }

  /** Normalize yields d exactly for the colon or the hyphen rendering of a
      valid d; in particular the empty string and every other layout yield
      no date. */
  lemma NormalizeExact(s: string, d: DateTime)
    ensures Normalize(s) == Some(d) <==> Valid(d) && (s == Render(d, ':') || s == Render(d, '-'))
  {
    ParseWithExact(s, ':', d);
    ParseWithExact(s, '-', d);
    if ParseWith(s, ':').Some? {
      ParseWithExact(s, ':', ParseWith(s, ':').value);
    }
  }
}

=== FILE: discovery.dfy ===
/** Which walked files the sorter takes (the extension filter that builds
    fileList) and how it tells photos from videos. */
module Discovery {
  import opened Text

  /** The `formats` tuple: matched against the END of the lower-cased full
      path, with no dot required. */
  const MediaExtensions: seq<string> := ["jpg", "avi", "cr2", "mov", "mp4"]

  /** filename.lower().endswith(formats) */
  predicate IsMedia(path: string)
  {
    exists e | e in MediaExtensions :: EndsWith(Lower(path), e)
  }

  /** The paths of a walk that the sorter processes, in walk order. */
  function MediaFiles(walked: seq<string>): (r: seq<string>)
    ensures forall x :: x in r <==> x in walked && IsMedia(x)
    ensures |r| <= |walked|
  {
    if walked == [] then []
    else
      var init := walked[..|walked| - 1];
      var x := walked[|walked| - 1];
      assert walked == init + [x];
      if IsMedia(x) then MediaFiles(init) + [x] else MediaFiles(init)
  }

  /** Selection keeps the walk's order: filtering a concatenation is the
      concatenation of the filtered parts. */
  lemma {:induction false} MediaFilesAppend(a: seq<string>, b: seq<string>)
    ensures MediaFiles(a + b) == MediaFiles(a) + MediaFiles(b)
  {
    if b != [] {
      var b' := b[..|b| - 1];
      assert (a + b)[..|a + b| - 1] == a + b';
      assert (a + b)[|a + b| - 1] == b[|b| - 1];
      MediaFilesAppend(a, b');
    } else {
      assert a + b == a;
    }
  }

  /** The first loop of main: walk the tree, keep the media files. */
  method SelectMedia(walked: seq<string>) returns (fileList: seq<string>)
    ensures fileList == MediaFiles(walked)
  {
    fileList := [];
    var i := 0;
    while i < |walked|
      invariant 0 <= i <= |walked|
      invariant fileList == MediaFiles(walked[..i])
    {
      assert walked[..i + 1][..i] == walked[..i];
      var filename := walked[i];
      if IsMedia(filename) {
        fileList := fileList + [filename];
      }
      i := i + 1;
    }
    assert walked[..i] == walked;
  }

  /** The filter looks at the last three characters only: a name with no
      dot such as "fooavi" is taken, upper case is taken, a preview file is not. */
  lemma FilterExamples()
    ensures IsMedia("d/fooavi")
    ensures IsMedia("d/IMG.JPG")
    ensures !IsMedia("d/MVI.THM")
  {
    var a, b, c := Lower("d/fooavi"), Lower("d/IMG.JPG"), Lower("d/MVI.THM");
    assert a[|a| - 3..] == "avi";
    assert b[|b| - 3..] == "jpg";
    assert c[|c| - 3..] == "thm";
    assert EndsWith(a, MediaExtensions[1]);
    assert EndsWith(b, MediaExtensions[0]);
  }

  /** How main classifies a processed file by its lower-cased basename. */
  datatype Kind = Photo | Avi | Movie

  function KindOf(name: string): (k: Kind)
    ensures k == Avi <==> EndsWith(Lower(name), "avi")
    ensures k == Movie <==> EndsWith(Lower(name), "mov") || EndsWith(Lower(name), "mp4")
    ensures IsMedia(name) ==> (k == Photo <==> EndsWith(Lower(name), "jpg") || EndsWith(Lower(name), "cr2"))
  {
    var l := Lower(name);
    if EndsWith(l, "avi") then Avi
    else if EndsWith(l, "mov") || EndsWith(l, "mp4") then Movie
    else Photo
  }
}

=== FILE: layout.dfy ===
/** Where a file goes: the default year / month name / yyyy_mm_dd layout
    under the target root, and the exif_problems quarantine directory. */
module Layout {
  import opened Wrappers
  import opened Numerals
  import opened Paths
  import opened Dates

  /** calendar.month_name[1..12] in the English locale. */
  const MonthNames: seq<string> := ["January", "February", "March", "April", "May", "June",
    "July", "August", "September", "October", "November", "December"]

  function MonthName(m: int): (r: string)
    requires 1 <= m <= 12
    ensures r != [] && NoSlash(r) && r[0] != '/'
  {
    MonthNames[m - 1]
  }

  /** year_str + "_" + month_str + "_" + day_str, the year as str(year) and
      month and day zero-padded to two digits. */
  function FolderName(d: DateTime): (r: string)
    requires Valid(d)
    ensures r != [] && NoSlash(r) && r[0] != '/'
  {
    var r := Decimal(d.year) + "_" + Pad2(d.month) + "_" + Pad2(d.day);
    assert forall i :: 0 <= i < |Decimal(d.year)| ==> r[i] == Decimal(d.year)[i];
    assert forall i :: |r| - 6 <= i < |r| ==> r[i] == ("_" + Pad2(d.month) + "_" + Pad2(d.day))[i - (|r| - 6)];
    r
  }

  /** os.path.join(target, year_str, month_name, folder_name). */
  function DestDir(target: string, d: DateTime): (r: string)
    requires Valid(d)
    ensures |target| < |r| && r[..|target|] == target
    ensures Basename(r) == FolderName(d)
  {
    var y := Decimal(d.year);
    assert y[0] != '/';
    BasenameOfJoin(Join(Join(target, y), MonthName(d.month)), FolderName(d));
    Join(Join(Join(target, Decimal(d.year)), MonthName(d.month)), FolderName(d))
  }

  /** Reads a folder name back as (year, month, day): the last six
      characters are "_MM_DD", everything before them the year. */
  function ParseFolder(s: string): Option<(int, int, int)>
  {
    if |s| >= 7 && s[|s| - 6] == '_' && s[|s| - 3] == '_'
       && AllDigits(s[..|s| - 6]) && AllDigits(s[|s| - 5..|s| - 3]) && AllDigits(s[|s| - 2..])
    then Some((Value(s[..|s| - 6]), Value(s[|s| - 5..|s| - 3]), Value(s[|s| - 2..])))
    else None
  }

  /** The folder name records the day exactly: month and day are always two
      digits, so the name reads back as the date's year, month and day. */
  lemma FolderNameRoundTrip(d: DateTime)
    requires Valid(d)
    ensures ParseFolder(FolderName(d)) == Some((d.year, d.month, d.day))
  {
    var y, m, dd := Decimal(d.year), Pad2(d.month), Pad2(d.day);
    assert FolderName(d) == y + "_" + m + "_" + dd;
    SplitFolder(y, m, dd);
    ValueOfDecimal(d.year);
  }

  /** Where the two underscores of year_mm_dd sit, whatever the year's width. */
  lemma SplitFolder(y: string, m: string, dd: string)
    requires |y| >= 1 && |m| == 2 && |dd| == 2
    ensures var s := y + "_" + m + "_" + dd;
      && |s| >= 7 && s[|s| - 6] == '_' && s[|s| - 3] == '_'
      && s[..|s| - 6] == y && s[|s| - 5..|s| - 3] == m && s[|s| - 2..] == dd
  {
    var s := y + "_" + m + "_" + dd;
    assert s[..|s| - 6] == y;
    assert s[|s| - 5..|s| - 3] == m;
    assert s[|s| - 2..] == dd;
  }

  /** The destination splits back into target / year / month name / folder. */
  lemma DestDirComponents(target: string, d: DateTime)
    requires Valid(d)
    ensures var p := DestDir(target, d);
      && Basename(p) == FolderName(d)
      && Basename(Dirname(p)) == MonthName(d.month)
      && Basename(Dirname(Dirname(p))) == Decimal(d.year)
      && Dirname(Dirname(Dirname(p))) == Dirname(Join(target, Decimal(d.year)))
      && (Canonical(target) ==> Dirname(Dirname(Dirname(p))) == target)
  {
    var y, mo, f := Decimal(d.year), MonthName(d.month), FolderName(d);
    assert NoSlash(y) && y[0] != '/';
    var j1 := Join(target, y);
    var j2 := Join(j1, mo);
    JoinEndsLikeComponent(target, y);
    JoinEndsLikeComponent(j1, mo);
    BasenameOfJoin(j2, f);
    DirnameOfJoin(j2, f);
    BasenameOfJoin(j1, mo);
    DirnameOfJoin(j1, mo);
    BasenameOfJoin(target, y);
    if Canonical(target) {
      DirnameOfJoin(target, y);
    }
  }

  /** Two dates share a destination directory exactly when they fall on the
      same calendar day. */
  lemma SameDirSameDay(target: string, d1: DateTime, d2: DateTime)
    requires Valid(d1) && Valid(d2)
    ensures DestDir(target, d1) == DestDir(target, d2) <==>
      (d1.year, d1.month, d1.day) == (d2.year, d2.month, d2.day)
  {
    if DestDir(target, d1) == DestDir(target, d2) {
      BasenameOfJoin(Join(Join(target, Decimal(d1.year)), MonthName(d1.month)), FolderName(d1));
      BasenameOfJoin(Join(Join(target, Decimal(d2.year)), MonthName(d2.month)), FolderName(d2));
      FolderNameRoundTrip(d1);
      FolderNameRoundTrip(d2);
    }
  }

  /** os.path.join(target, "exif_problems") */
  function ProblemsDir(target: string): (r: string)
    ensures |target| < |r| && r[..|target|] == target
    ensures r[|r| - 1] != '/'
    ensures Basename(r) == "exif_problems"
    ensures Canonical(target) ==> Dirname(r) == target
  {
    var name := "exif_problems";
    assert NoSlash(name);
    BasenameOfJoin(target, name);
    if Canonical(target) then DirnameOfJoin(target, name); Join(target, name)
    else Join(target, name)
  }

  /** new_error_dest as the source computes it: the original directory with
      its first character cut off, joined onto the problems directory. */
  function QuarantineDirAsWritten(target: string, origPath: string): (r: string)
    ensures |origPath| >= 2 && origPath[1] == '/' ==> r == origPath[1..]
    ensures !(|origPath| >= 2 && origPath[1] == '/') ==>
      var p := ProblemsDir(target); |p| < |r| && r[..|p|] == p && r[|p|] == '/'
  {
    Join(ProblemsDir(target), if origPath == [] then [] else origPath[1..])
  }

  /** Run with source "." the walk yields directories such as "./sub"; cutting
      one character leaves the absolute "/sub", and join then discards the
      problems directory altogether. */
  lemma AsWrittenLeavesTarget()
    ensures QuarantineDirAsWritten("/target", "./sub") == "/sub"
  {
    assert "./sub"[1..] == "/sub";
  }

  /** Run with a relative source such as "photos", the first letter of every
      directory is lost: "photos/sub" is mirrored as "hotos/sub". */
  lemma AsWrittenDropsFirstLetter()
    ensures QuarantineDirAsWritten("/t", "photos/sub") == "/t/exif_problems/hotos/sub"
  {
    ProblemsUnderT();
    assert "photos/sub"[1..] == "hotos/sub";
    JoinRelative("/t/exif_problems", "hotos/sub");
  }

  /** The corrected directory keeps a relative directory such as
      "photos/sub" whole, right below exif_problems. */
  lemma CorrectedKeepsRelative(target: string, d: string)
    requires d != [] && d[0] != '/'
    ensures QuarantineDir(target, d) == ProblemsDir(target) + "/" + d
  {
    assert TrimLeadingSlashes(d) == d;
    JoinRelative(ProblemsDir(target), d);
  }

  lemma JoinRelative(p: string, t: string)
    requires p != [] && p[|p| - 1] != '/' && (t == [] || t[0] != '/')
    ensures Join(p, t) == p + "/" + t
  {
  }

  lemma ProblemsUnderT()
    ensures ProblemsDir("/t") == "/t/exif_problems"
  {
  }

  /** origPath.lstrip('/') */
  function TrimLeadingSlashes(s: string): (r: string)
    ensures |r| <= |s| && r == s[|s| - |r|..]
    ensures r == [] || r[0] != '/'
    ensures forall i :: 0 <= i < |s| - |r| ==> s[i] == '/'
  {
    if s == [] || s[0] != '/' then s else TrimLeadingSlashes(s[1..])
  }

  /** The quarantine directory the mirroring evidently intends: the original
      directory made relative by dropping its leading slashes, under the
      problems directory. */
  function QuarantineDir(target: string, origPath: string): (r: string)
    ensures var p := ProblemsDir(target); |p| < |r| && r[..|p|] == p && r[|p|] == '/'
    ensures EndsWithName(r, TrimLeadingSlashes(origPath))
  {
    Join(ProblemsDir(target), TrimLeadingSlashes(origPath))
  }

  /** For a directory that starts with a single '/' (every directory of a
      walk from an absolute source such as the default, the current
      directory) the intended directory is exactly what the source computes. */
  lemma QuarantineAgreesOnAbsolute(target: string, origPath: string)
    requires |origPath| >= 1 && origPath[0] == '/' && (|origPath| == 1 || origPath[1] != '/')
    ensures QuarantineDir(target, origPath) == QuarantineDirAsWritten(target, origPath)
  {
    assert TrimLeadingSlashes(origPath[1..]) == origPath[1..];
  }

  /** The mirrored part of a quarantined file's path: nothing for the root,
      otherwise the relative directory and a '/'. */
  function Mirror(origPath: string): string
  {
    MirrorOf(TrimLeadingSlashes(origPath))
  }

  function MirrorOf(r: string): string
  {
    if r == [] then [] else r + "/"
  }

  lemma MirrorOfInjective(r1: string, r2: string)
    requires r1 != r2
    ensures MirrorOf(r1) != MirrorOf(r2)
  {
    if r1 != [] && r2 != [] {
      assert MirrorOf(r1)[..|r1|] == r1;
      assert MirrorOf(r2)[..|r2|] == r2;
      assert |MirrorOf(r1)| == |r1| + 1 && |MirrorOf(r2)| == |r2| + 1;
    } else if r1 == [] {
      assert |MirrorOf(r2)| > 0;
    } else {
      assert |MirrorOf(r1)| > 0;
    }
  }

  /** A canonical directory that is not all slashes keeps its last
      character once its leading slashes are dropped. */
  lemma TrimmedEndsLikeOriginal(d: string)
    requires Canonical(d) && TrimLeadingSlashes(d) != []
    ensures var r := TrimLeadingSlashes(d); r[|r| - 1] == d[|d| - 1] && d[|d| - 1] != '/'
  {
    var r := TrimLeadingSlashes(d);
    assert d[|d| - |r|] != '/';
    assert !AllSlashes(d);
  }

  /** Every quarantined file lands inside the problems directory, at the
      mirrored directory followed by its own name. */
  lemma QuarantineFileShape(target: string, origPath: string, name: string)
    requires Canonical(origPath) && name != [] && NoSlash(name)
    ensures Join(QuarantineDir(target, origPath), name) == ProblemsDir(target) + "/" + Mirror(origPath) + name
  {
    var p := ProblemsDir(target);
    var r := TrimLeadingSlashes(origPath);
    JoinRelative(p, r);
    if r != [] {
      TrimmedEndsLikeOriginal(origPath);
      JoinBelow(p, r, name);
    } else {
      JoinAtRoot(p, name);
    }
  }

  /** Joining a name onto p + "/" puts it right after the slash. */
  lemma JoinAtRoot(p: string, name: string)
    requires name != [] && NoSlash(name)
    ensures Join(p + "/" + [], name) == p + "/" + MirrorOf([]) + name
  {
    assert p + "/" + [] == p + "/";
  }

  /** Joining a name below p + "/" + r, for an r that ends in a non-slash. */
  lemma JoinBelow(p: string, r: string, name: string)
    requires r != [] && r[|r| - 1] != '/' && name != [] && NoSlash(name)
    ensures Join(p + "/" + r, name) == p + "/" + MirrorOf(r) + name
  {
    var q := p + "/" + r;
    assert q[|q| - 1] == r[|r| - 1];
    assert q + "/" + name == p + "/" + (r + "/") + name;
  }

  /** Different directories of the same kind stay different once their
      leading slashes are dropped. */
  lemma TrimSeparates(d1: string, d2: string)
    requires d1 != d2 && SingleRooted(d1) && SingleRooted(d2)
    requires (|d1| > 0 && d1[0] == '/') <==> (|d2| > 0 && d2[0] == '/')
    ensures TrimLeadingSlashes(d1) != TrimLeadingSlashes(d2)
  {
    if |d1| > 0 && d1[0] == '/' {
      TrimOneSlash(d1);
      TrimOneSlash(d2);
    }
  }

  /** A directory with a single leading '/' loses exactly that one. */
  lemma TrimOneSlash(d: string)
    requires |d| > 0 && d[0] == '/' && SingleRooted(d)
    ensures TrimLeadingSlashes(d) == d[1..] && d == "/" + d[1..]
  {
    assert |d[1..]| == 0 || d[1..][0] != '/';
  }

  /** Different directories of the same kind have different mirrors. */
  lemma MirrorSeparates(d1: string, d2: string)
    requires d1 != d2 && SingleRooted(d1) && SingleRooted(d2)
    requires (|d1| > 0 && d1[0] == '/') <==> (|d2| > 0 && d2[0] == '/')
    ensures Mirror(d1) != Mirror(d2)
  {
    TrimSeparates(d1, d2);
    MirrorOfInjective(TrimLeadingSlashes(d1), TrimLeadingSlashes(d2));
  }

  /** Different middles give different strings: a + x + c != a + y + c. */
  lemma MiddleDiffers(a: string, x: string, y: string, c: string)
    requires x != y
    ensures a + x + c != a + y + c
  {
    if |x| == |y| {
      var f, g := a + x + c, a + y + c;
      assert f[|a|..|a| + |x|] == x && g[|a|..|a| + |y|] == y;
    }
  }

  /** Two files of the same name from different directories of the same walk
      (both relative, or both starting with a single '/') are quarantined to
      different paths. */
  lemma QuarantineSeparates(target: string, d1: string, d2: string, name: string)
    requires Canonical(d1) && Canonical(d2) && name != [] && NoSlash(name) && d1 != d2
    requires SingleRooted(d1) && SingleRooted(d2)
    requires (|d1| > 0 && d1[0] == '/') <==> (|d2| > 0 && d2[0] == '/')
    ensures Join(QuarantineDir(target, d1), name) != Join(QuarantineDir(target, d2), name)
  {
    QuarantineFileShape(target, d1, name);
    QuarantineFileShape(target, d2, name);
    MirrorSeparates(d1, d2);
    MiddleDiffers(ProblemsDir(target) + "/", Mirror(d1), Mirror(d2), name);
  }

  /** No "//" at the front of a path. */
  predicate SingleRooted(d: string)
  {
    !(|d| >= 2 && d[0] == '/' && d[1] == '/')
  }
}

=== FILE: numerals.dfy ===
/** Decimal digits: reading a run of digits as a number (what int() and
    strptime do with a numeric field) and writing a number as digits
    (str(n) and the zero padding of the destination path). */
module Numerals {

  predicate IsDigit(c: char)
  {
    '0' <= c <= '9'
  }

  predicate AllDigits(s: string)
  {
    forall i :: 0 <= i < |s| ==> IsDigit(s[i])
  }

  function DigitValue(c: char): (v: nat)
    requires IsDigit(c)
    ensures v < 10
  {
    c as int - '0' as int
  }

  function DigitChar(v: nat): (c: char)
    requires v < 10
    ensures IsDigit(c) && DigitValue(c) == v
  {
    ('0' as int + v) as char
  }

  /** The value of a string of decimal digits, most significant first. */
  function Value(s: string): nat
    requires AllDigits(s)
  {
    if s == [] then 0 else Value(s[..|s| - 1]) * 10 + DigitValue(s[|s| - 1])
  }

  /** str(n) for a non-negative integer: no sign, no leading zero. */
  function Decimal(n: nat): (r: string)
    ensures AllDigits(r) && |r| >= 1
    ensures r[0] == '0' ==> n == 0
    ensures n < 10 ==> |r| == 1
    ensures 10 <= n < 100 ==> |r| == 2
  {
    if n < 10 then [DigitChar(n)] else Decimal(n / 10) + [DigitChar(n % 10)]
  }

  /** Reading back what str(n) wrote gives n. */
  lemma {:induction false} ValueOfDecimal(n: nat)
    ensures Value(Decimal(n)) == n
  {
    if n >= 10 {
      var p := Decimal(n / 10);
      assert (p + [DigitChar(n % 10)])[..|p|] == p;
      ValueOfDecimal(n / 10);
    }
  }

  /** The value of a string is fixed by its last two digits and the rest. */
  lemma ValueSplitTwo(a: string, b: string)
    requires AllDigits(a) && AllDigits(b) && |b| == 2
    ensures AllDigits(a + b)
    ensures Value(a + b) == Value(a) * 100 + Value(b)
  {
    var ab, a0 := a + b, a + [b[0]];
    assert ab[..|ab| - 1] == a0;
    assert a0[..|a|] == a;
    assert Value(a0) == Value(a) * 10 + DigitValue(b[0]);
    assert Value(ab) == Value(a0) * 10 + DigitValue(b[1]);
    assert b[..1] == [b[0]];
    assert [b[0]][..0] == [];
    assert Value([b[0]]) == DigitValue(b[0]);
  }

  /** A two-digit field: the month and day of the destination path
      ('0' + str(n) below 10, str(n) otherwise). */
  function Pad2(n: nat): (r: string)
    requires n < 100
    ensures |r| == 2 && AllDigits(r) && Value(r) == n
  {
    ValueOfDecimal(n);
    if n < 10 then "0" + Decimal(n) else Decimal(n)
  }

  /** A four-digit field, as the year of an Exif date/time. */
  function Pad4(n: nat): (r: string)
    requires n < 10000
    ensures |r| == 4 && AllDigits(r) && Value(r) == n
  {
    ValueSplitTwo(Pad2(n / 100), Pad2(n % 100));
    Pad2(n / 100) + Pad2(n % 100)
  }

  /** Every two-digit string is the padding of its own value. */
  lemma Pad2OfValue(s: string)
    requires |s| == 2 && AllDigits(s)
    ensures Value(s) < 100 && Pad2(Value(s)) == s
  {
    assert s[..1] == [s[0]];
    assert [s[0]][..0] == [];
    assert Value([s[0]]) == DigitValue(s[0]);
    var n := Value(s);
    assert n == DigitValue(s[0]) * 10 + DigitValue(s[1]);
    if DigitValue(s[0]) != 0 {
      assert n / 10 == DigitValue(s[0]) && n % 10 == DigitValue(s[1]);
      assert Decimal(n) == Decimal(n / 10) + [DigitChar(n % 10)];
    }
  }

  /** Every four-digit string is the padding of its own value. */
  lemma Pad4OfValue(s: string)
    requires |s| == 4 && AllDigits(s)
    ensures Value(s) < 10000 && Pad4(Value(s)) == s
  {
    var a, b := s[..2], s[2..];
    assert s == a + b;
    ValueSplitTwo(a, b);
    Pad2OfValue(a);
    Pad2OfValue(b);
    var n := Value(s);
    assert n == Value(a) * 100 + Value(b);
    assert n / 100 == Value(a) && n % 100 == Value(b);
    assert Pad4(n) == Pad2(Value(a)) + Pad2(Value(b));
  }
}

=== FILE: paths.dfy ===
/** The pieces of Python 2's posixpath that the sorter uses: join, basename,
    dirname and splitext, on '/'-separated path strings. */
module Paths {

  predicate NoSlash(s: string)
  {
    forall i :: 0 <= i < |s| ==> s[i] != '/'
  }

  predicate AllSlashes(s: string)
  {
    forall i :: 0 <= i < |s| ==> s[i] == '/'
  }

  /** p.rfind(c) + 1: the index just past the last c, or 0 when there is none. */
  function IndexAfterLast(p: string, c: char): (k: nat)
    ensures k <= |p|
    ensures k > 0 ==> p[k - 1] == c
    ensures forall i :: k <= i < |p| ==> p[i] != c
  {
    if p == [] then 0 else if p[|p| - 1] == c then |p| else IndexAfterLast(p[..|p| - 1], c)
  }

  /** The last '/' of x + n is the last character of x when n has none. */
  lemma LastSlashAt(x: string, n: string)
    requires x == [] || x[|x| - 1] == '/'
    requires NoSlash(n)
    ensures IndexAfterLast(x + n, '/') == |x|
  {
    var p := x + n;
    if x != [] {
      assert p[|x| - 1] == '/';
    }
    assert forall i :: |x| <= i < |p| ==> p[i] == n[i - |x|];
  }

  /** os.path.basename: everything after the last '/'. */
  function Basename(p: string): (r: string)
    ensures NoSlash(r)
    ensures EndsWithName(p, r)
    ensures IndexAfterLast(p, '/') == |p| - |r|
  {
    p[IndexAfterLast(p, '/')..]
  }

  predicate EndsWithName(p: string, r: string)
  {
    |r| <= |p| && p[|p| - |r|..] == r
  }

  /** head.rstrip('/') */
  function TrimTrailingSlashes(s: string): (r: string)
    ensures |r| <= |s| && r == s[..|r|]
    ensures r == [] || r[|r| - 1] != '/'
    ensures forall i :: |r| <= i < |s| ==> s[i] == '/'
  {
    if s == [] || s[|s| - 1] != '/' then s else TrimTrailingSlashes(s[..|s| - 1])
  }

  /** os.path.dirname: everything up to the last '/', with trailing slashes
      removed unless the head consists of slashes only. */
  function Dirname(p: string): (r: string)
    ensures |r| <= |p| && r == p[..|r|]
    ensures Canonical(r)
    ensures r == [] <==> NoSlash(p)
    ensures |r| <= IndexAfterLast(p, '/')
    ensures forall i :: |r| <= i < IndexAfterLast(p, '/') ==> p[i] == '/'
    ensures (forall i :: 0 <= i < IndexAfterLast(p, '/') ==> p[i] == '/') ==> |r| == IndexAfterLast(p, '/')
  {
    var head := p[..IndexAfterLast(p, '/')];
    if head != [] && !AllSlashes(head) then TrimTrailingSlashes(head) else head
  }

  /** The shape of a directory as dirname returns it: empty, a run of
      slashes, or ending in something other than '/'. */
  predicate Canonical(d: string)
  {
    d == [] || d[|d| - 1] != '/' || AllSlashes(d)
  }

  /** os.path.join(a, b): an absolute b replaces a; otherwise a single '/'
      is inserted unless a is empty or already ends in '/'. */
  function Join(a: string, b: string): (r: string)
    ensures |b| > 0 && b[0] == '/' ==> r == b
    ensures !(|b| > 0 && b[0] == '/') ==> |a| <= |r| && r[..|a|] == a && EndsWithName(r, b)
    ensures !(|b| > 0 && b[0] == '/') && a != [] && a[|a| - 1] != '/' ==>
      |r| == |a| + 1 + |b| && r[|a|] == '/'
    ensures !(|b| > 0 && b[0] == '/') && (a == [] || a[|a| - 1] == '/') ==> |r| == |a| + |b|
  {
    if |b| > 0 && b[0] == '/' then b
    else if a == [] || a[|a| - 1] == '/' then a + b
    else a + "/" + b
  }

  /** A relative component keeps its last character at the end of the join. */
  lemma JoinEndsLikeComponent(a: string, b: string)
    requires b != [] && b[0] != '/'
    ensures Join(a, b) != [] && Join(a, b)[|Join(a, b)| - 1] == b[|b| - 1]
  {
  }

  /** Joining a plain file name onto a directory and taking the basename
      gives the file name back. */
  lemma BasenameOfJoin(d: string, n: string)
    requires n != [] && NoSlash(n)
    ensures Basename(Join(d, n)) == n
  {
    var j := Join(d, n);
    if d == [] || d[|d| - 1] == '/' {
      LastSlashAt(d, n);
      assert j[|d|..] == n;
    } else {
      LastSlashAt(d + "/", n);
      assert j == (d + "/") + n;
      assert j[|d| + 1..] == n;
    }
  }

  /** Joining a plain file name onto a directory of the shape dirname
      returns and taking the dirname gives the directory back. */
  lemma DirnameOfJoin(d: string, n: string)
    requires Canonical(d) && n != [] && NoSlash(n)
    ensures Dirname(Join(d, n)) == d
  {
    var j := Join(d, n);
    if d == [] {
      LastSlashAt(d, n);
      assert j[..0] == [];
    } else if d[|d| - 1] == '/' {
      LastSlashAt(d, n);
      assert j[..|d|] == d;
    } else {
      var x := d + "/";
      LastSlashAt(x, n);
      assert j == x + n;
      assert j[..|x|] == x;
      assert x[..|x| - 1] == d;
      assert !AllSlashes(x) by { assert x[|d| - 1] != '/'; }
    }
  }

  /** os.path.splitext(name)[0] for a name without '/': the name up to its
      last '.', unless everything before that '.' is dots too (".bashrc"
      and "..avi" have no extension). */
  function Stem(name: string): (r: string)
    ensures |r| <= |name| && r == name[..|r|]
    ensures (forall i :: 0 <= i < |name| ==> name[i] != '.') ==> r == name
    ensures r != name ==>
      |r| < |name| && name[|r|] == '.' && (forall i :: |r| < i < |name| ==> name[i] != '.') &&
      exists i :: 0 <= i < |r| && name[i] != '.'
    ensures (exists i, j :: 0 <= i < j < |name| && name[i] != '.' && name[j] == '.') ==> r != name
  {
    var k := IndexAfterLast(name, '.');
    if k > 0 && exists i | 0 <= i < k - 1 :: name[i] != '.' then name[..k - 1] else name
  }
}

=== FILE: sorter.dfy ===
/** The relocation loop of main: every media file of the walk is dated,
    copied into its dated folder unless a file of that name is already
    there, or quarantined under exif_problems when it has no date; four
    counters record what happened. The filesystem is the set of existing
    file paths; the metadata readers, the copy and directory creation are
    supplied by the environment. */
module Sorter {
  import opened Wrappers
  import opened Text
  import opened Paths
  import opened Dates
  import opened Tags
  import opened Companions
  import opened Layout
  import opened Discovery

  /** Python 2 keeps IOError (failing to open or write a file) apart from
      OSError (failing to copy the permission bits and times). */
  datatype CopyError = OsError | IoError

  /** What shutil.copy2(source, dir) did: finished, or raised, possibly after
      the destination file had already been created. */
  datatype CopyOutcome = Copied | Raised(error: CopyError, leftFile: bool)

  /** The destination file exists after the copy. */
  predicate Leaves(o: CopyOutcome)
  {
    o.Copied? || o.leftFile
  }

  /** One call of shutil.copy2, with the destination file it aims at. */
  datatype Attempt = Attempt(source: string, dest: string, outcome: CopyOutcome)

  /** processCount, copyCount, skipCount, exceptionCount, nocreatedateCount. */
  datatype Stats = Stats(processed: nat, copied: nat, skipped: nat, exceptions: nat, noDate: nat)

  /** The files that have reached one of the four outcomes. */
  function Settled(s: Stats): nat
  {
    s.copied + s.skipped + s.exceptions + s.noDate
  }

  /** What the loop cannot see into: the tag map get_exif_data returns for a
      path, the creation_date text the container reader finds (None when it
      finds none), the outcome of copying a file to a destination file, and
      whether os.makedirs of a directory fails with anything but EEXIST. */
  datatype Env = Env(
    exifTags: string -> TagMap,
    containerDate: string -> Option<string>,
    copy: (string, string) -> CopyOutcome,
    mkdirFails: string -> bool)

  /** The existing files, the counters, every copy made so far, and whether
      an exception escaped main. */
  datatype State = State(files: set<string>, stats: Stats, log: seq<Attempt>, aborted: bool)

  /** The date a file resolves to and the companion it was read from. */
  datatype Resolution = Resolution(date: Option<DateTime>, companion: Option<Companion>)

  /** Lines 319-340: photos are read through the Exif readers; an .avi with a
      companion preview file is dated from the companion's tags; other videos,
      and an .avi without one, from the container metadata. */
  function Resolve(env: Env, files: set<string>, path: string): (r: Resolution)
    ensures r.date.Some? ==> Valid(r.date.value)
    ensures r.companion.Some? ==> KindOf(Basename(path)) == Avi && r.companion == FindCompanion(path, files)
    ensures KindOf(Basename(path)) == Photo ==> r == Resolution(CreateDate(env.exifTags(path)), None)
    ensures KindOf(Basename(path)) == Avi && FindCompanion(path, files).Some? ==>
      r == Resolution(CreateDate(env.exifTags(FindCompanion(path, files).value.path)), FindCompanion(path, files))
    ensures KindOf(Basename(path)) == Movie || (KindOf(Basename(path)) == Avi && FindCompanion(path, files).None?) ==>
      r == Resolution(ContainerDate(env.containerDate(path)), None)
  {
    match KindOf(Basename(path))
    case Photo => Resolution(CreateDate(env.exifTags(path)), None)
    case Avi =>
      (match FindCompanion(path, files)
       case Some(c) => Resolution(CreateDate(env.exifTags(c.path)), Some(c))
       case None => Resolution(ContainerDate(env.containerDate(path)), None))
    case Movie => Resolution(ContainerDate(env.containerDate(path)), None)
  }


  /** A copy has been made: log it; the destination exists afterwards if the
      copy got far enough to create it. */
  function LogCopy(st: State, source: string, dest: string, o: CopyOutcome): State
  {
    st.(files := if Leaves(o) then st.files + {dest} else st.files,
        log := st.log + [Attempt(source, dest, o)])
  }

  /** Line 317: processCount is incremented first. */
  function Started(st: State): State
  {
    st.(stats := st.stats.(processed := st.stats.processed + 1))
  }

  /** Line 395: nocreatedateCount is incremented. */
  function Undated(st: State): State
  {
    st.(stats := st.stats.(noDate := st.stats.noDate + 1))
  }

  /** Lines 365-377: copy unless the destination file exists; count the copy,
      the skip, or the OSError; an IOError is not caught and ends the run. */
  function CopyPrimary(env: Env, st: State, source: string, dest: string): (r: State)
    ensures r.stats.processed == st.stats.processed && r.stats.noDate == st.stats.noDate
    ensures st.stats.copied <= r.stats.copied && st.stats.skipped <= r.stats.skipped
    ensures st.stats.exceptions <= r.stats.exceptions
    ensures !st.aborted ==> Settled(r.stats) == if r.aborted then Settled(st.stats) else Settled(st.stats) + 1
    ensures dest in st.files ==>
      r.files == st.files && r.log == st.log && r.aborted == st.aborted && r.stats == st.stats.(skipped := st.stats.skipped + 1)
    ensures st.files <= r.files
    ensures dest !in st.files ==> r.log == st.log + [Attempt(source, dest, env.copy(source, dest))]
    ensures dest !in st.files ==> r.files == if Leaves(env.copy(source, dest)) then st.files + {dest} else st.files
    ensures dest !in st.files && env.copy(source, dest) == Copied ==>
      r.stats == st.stats.(copied := st.stats.copied + 1)
    ensures dest !in st.files && env.copy(source, dest).Raised? && env.copy(source, dest).error == OsError ==>
      r.stats == st.stats.(exceptions := st.stats.exceptions + 1)
    ensures dest !in st.files && env.copy(source, dest).Raised? && env.copy(source, dest).error == IoError ==>
      r.stats == st.stats
    ensures r.aborted <==>
      st.aborted || (dest !in st.files && env.copy(source, dest).Raised? && env.copy(source, dest).error == IoError)
  {
    if dest in st.files then st.(stats := st.stats.(skipped := st.stats.skipped + 1))
    else
      var o := env.copy(source, dest);
      var s := LogCopy(st, source, dest, o);
      match o
      case Copied => s.(stats := s.stats.(copied := s.stats.copied + 1))
      case Raised(OsError, _) => s.(stats := s.stats.(exceptions := s.stats.exceptions + 1))
      case Raised(IoError, _) => s.(aborted := true)
  }

  /** Lines 378-392: the companion goes to the same folder under the same
      rule; the counters are left alone (the source comments them out). */
  function CopyCompanion(env: Env, st: State, source: string, dest: string): (r: State)
    ensures r.stats == st.stats
    ensures dest in st.files ==> r == st
    ensures st.files <= r.files
    ensures dest !in st.files ==> r.log == st.log + [Attempt(source, dest, env.copy(source, dest))]
    ensures dest !in st.files ==> r.files == if Leaves(env.copy(source, dest)) then st.files + {dest} else st.files
    ensures r.aborted <==>
      st.aborted || (dest !in st.files && env.copy(source, dest).Raised? && env.copy(source, dest).error == IoError)
  {
    if dest in st.files then st
    else
      var o := env.copy(source, dest);
      var s := LogCopy(st, source, dest, o);
      if o.Raised? && o.error == IoError then s.(aborted := true) else s
  }

  /** Lines 405-410: the courtesy copy into quarantine; every exception is
      swallowed. */
  function Quarantine(env: Env, st: State, source: string, dest: string): (r: State)
    ensures r.stats == st.stats && r.aborted == st.aborted
    ensures dest in st.files ==> r == st
    ensures st.files <= r.files
    ensures dest !in st.files ==> r.log == st.log + [Attempt(source, dest, env.copy(source, dest))]
    ensures dest !in st.files ==> r.files == if Leaves(env.copy(source, dest)) then st.files + {dest} else st.files
  {
    if dest in st.files then st else LogCopy(st, source, dest, env.copy(source, dest))
  }

  /** The file of the same name as path in directory dir. */
  function Into(dir: string, path: string): string
  {
    Join(dir, Basename(path))
  }

  /** Lines 358-392: a dated file whose folder could be created is copied
      there, and its companion after it unless an exception escaped. */
  function Filed(env: Env, st: State, path: string, dir: string, companion: Option<Companion>): State
  {
    var after := CopyPrimary(env, st, path, Into(dir, path));
    if after.aborted || companion.None? then after
    else CopyCompanion(env, after, companion.value.path, Join(dir, companion.value.name))
  }

  /** Lines 394-410: an undated file is counted and copied under
      exif_problems into the mirror of its own directory, computed with the
      corrected QuarantineDir rather than line 397's orig_path[1:]. */
  function Unfiled(env: Env, target: string, st: State, path: string): State
  {
    var qdir := QuarantineDir(target, Dirname(path));
    if env.mkdirFails(qdir) then Undated(st).(aborted := true)
    else Quarantine(env, Undated(st), path, Into(qdir, path))
  }

  /** Lines 343-410: what becomes of a file once its date is resolved. */
  function Dispose(env: Env, target: string, st: State, path: string, res: Resolution): State
    requires res.date.Some? ==> Valid(res.date.value)
  {
    match res.date
    case Some(d) =>
      if env.mkdirFails(DestDir(target, d)) then st.(aborted := true)
      else Filed(env, st, path, DestDir(target, d), res.companion)
    case None => Unfiled(env, target, st, path)
  }

  /** One turn of the loop of main (lines 317-410); nothing happens once an
      exception has escaped. */
  function Step(env: Env, target: string, st: State, path: string): State
  {
    if st.aborted then st
    else Dispose(env, target, Started(st), path, Resolve(env, st.files, path))
  }

  lemma StepIsDispose(env: Env, target: string, st: State, path: string)
    requires !st.aborted
    ensures Step(env, target, st, path) == Dispose(env, target, Started(st), path, Resolve(env, st.files, path))
  {
  }

  /** The loop over a list of files, one Step per file in order. */
  function RunFrom(env: Env, target: string, st: State, paths: seq<string>): State
  {
    if paths == [] then st
    else Step(env, target, RunFrom(env, target, st, paths[..|paths| - 1]), paths[|paths| - 1])
  }

  function Initial(existing: set<string>): State
  {
    State(existing, Stats(0, 0, 0, 0, 0), [], false)
  }

  /** main from line 291: select the media files, create exif_problems (a
      failure other than EEXIST ends the run before any file), run the loop. */
  function Sort(env: Env, target: string, walked: seq<string>, existing: set<string>): State
  {
    if env.mkdirFails(ProblemsDir(target)) then Initial(existing).(aborted := true)
    else RunFrom(env, target, Initial(existing), MediaFiles(walked))
  }

  /** Once an exception has escaped, the remaining files change nothing. */
  lemma {:induction false} AbortedStays(env: Env, target: string, st: State, paths: seq<string>, k: nat)
    requires k <= |paths| && RunFrom(env, target, st, paths[..k]).aborted
    ensures RunFrom(env, target, st, paths) == RunFrom(env, target, st, paths[..k])
    decreases |paths| - k
  {
    if k < |paths| {
      assert paths[..k + 1][..k] == paths[..k];
      AbortedStays(env, target, st, paths, k + 1);
    } else {
      assert paths[..k] == paths;
    }
  }

  /** The run over one more file is one more Step. */
  lemma RunFromNext(env: Env, target: string, st: State, paths: seq<string>, i: nat)
    requires i < |paths|
    ensures RunFrom(env, target, st, paths[..i + 1]) == Step(env, target, RunFrom(env, target, st, paths[..i]), paths[i])
  {
    assert paths[..i + 1][..i] == paths[..i];
  }

  /** Lines 358-392 as the source runs them: copy the file unless its
      destination exists and count the outcome, then its companion. */
  method FileDated(env: Env, st: State, file: string, destpath: string, companion: Option<Companion>) returns (r: State)
    ensures r == Filed(env, st, file, destpath, companion)
  {
    r := st;
    var destFile := Into(destpath, file);
    if destFile !in r.files {
      var outcome := env.copy(file, destFile);
      r := LogCopy(r, file, destFile, outcome);
      if outcome.Copied? {
        r := r.(stats := r.stats.(copied := r.stats.copied + 1));
      } else if outcome.error == OsError {
        r := r.(stats := r.stats.(exceptions := r.stats.exceptions + 1));
      } else {
        r := r.(aborted := true);
      }
    } else {
      r := r.(stats := r.stats.(skipped := r.stats.skipped + 1));
    }
    assert r == CopyPrimary(env, st, file, destFile);
    if !r.aborted && companion.Some? {
      ghost var after := r;
      var thm := companion.value;
      var destThm := Join(destpath, thm.name);
      if destThm !in r.files {
        var outcome := env.copy(thm.path, destThm);
        r := LogCopy(r, thm.path, destThm, outcome);
        if outcome.Raised? && outcome.error == IoError {
          r := r.(aborted := true);
        }
      }
      assert r == CopyCompanion(env, after, thm.path, destThm);
    }
  }

  /** Lines 394-410 step by step, with the corrected quarantine directory. */
  method FileUndated(env: Env, target: string, st: State, file: string) returns (r: State)
    ensures r == Unfiled(env, target, st, file)
  {
    r := Undated(st);
    var newErrorDest := QuarantineDir(target, Dirname(file));
    if env.mkdirFails(newErrorDest) {
      r := r.(aborted := true);
    } else {
      var newDestFile := Into(newErrorDest, file);
      if newDestFile !in r.files {
        r := LogCopy(r, file, newDestFile, env.copy(file, newDestFile));
      }
    }
  }

  /** One turn of the loop of main (lines 317-410) step by step, with the
      corrected quarantine directory. */
  method ProcessFile(env: Env, target: string, st: State, file: string) returns (r: State)
    requires !st.aborted
    ensures r == Step(env, target, st, file)
  {
    r := Started(st);
    var res := Resolve(env, st.files, file);
    if res.date.Some? {
      var destpath := DestDir(target, res.date.value);
      if env.mkdirFails(destpath) {
        r := r.(aborted := true);
      } else {
        r := FileDated(env, r, file, destpath, res.companion);
      }
    } else {
      r := FileUndated(env, target, r, file);
    }
  }

  /** main from line 291 step by step, with the corrected quarantine
      directory: build fileList, create exif_problems, then process the files
      one by one while no exception has escaped. */
  method SortMedia(env: Env, target: string, walked: seq<string>, existing: set<string>) returns (r: State)
    ensures r == Sort(env, target, walked, existing)
  {
    var fileList := SelectMedia(walked);
    r := Initial(existing);
    if env.mkdirFails(ProblemsDir(target)) {
      r := r.(aborted := true);
      return;
    }
    var i := 0;
    while i < |fileList| && !r.aborted
      invariant 0 <= i <= |fileList|
      invariant r == RunFrom(env, target, Initial(existing), fileList[..i])
    {
      RunFromNext(env, target, Initial(existing), fileList, i);
      r := ProcessFile(env, target, r, fileList[i]);
      i := i + 1;
    }
    if r.aborted {
      AbortedStays(env, target, Initial(existing), fileList, i);
    } else {
      assert fileList[..i] == fileList;
    }
  }

  /** The four outcome counters account for every processed file; when an
      exception escaped, the file it escaped from may be counted or not. */
  predicate Accounted(st: State)
  {
    if st.aborted then Settled(st.stats) <= st.stats.processed <= Settled(st.stats) + 1
    else Settled(st.stats) == st.stats.processed
  }

  lemma DisposeCounts(env: Env, target: string, st: State, path: string, res: Resolution)
    requires res.date.Some? ==> Valid(res.date.value)
    requires !st.aborted
    ensures var s := Dispose(env, target, st, path, res);
      && s.stats.processed == st.stats.processed
      && st.stats.copied <= s.stats.copied && st.stats.skipped <= s.stats.skipped
      && st.stats.exceptions <= s.stats.exceptions && st.stats.noDate <= s.stats.noDate
      && (if s.aborted then Settled(st.stats) <= Settled(s.stats) <= Settled(st.stats) + 1
          else Settled(s.stats) == Settled(st.stats) + 1)
      && (res.date.None? ==> s.stats == st.stats.(noDate := st.stats.noDate + 1))
      && (res.date.Some? ==> s.stats.noDate == st.stats.noDate)
  {
    var s := Dispose(env, target, st, path, res);
    if res.date.Some? {
      var dir := DestDir(target, res.date.value);
      if !env.mkdirFails(dir) {
        assert s == Filed(env, st, path, dir, res.companion);
        FiledCounts(env, st, path, dir, res.companion);
      } else {
        assert s == st.(aborted := true);
      }
    } else {
      assert s == Unfiled(env, target, st, path);
      UnfiledStats(env, target, st, path);
    }
  }

  lemma UnfiledStats(env: Env, target: string, st: State, path: string)
    ensures Unfiled(env, target, st, path).stats == st.stats.(noDate := st.stats.noDate + 1)
  {
    var qdir := QuarantineDir(target, Dirname(path));
    if !env.mkdirFails(qdir) {
      var u := Undated(st);
      assert Unfiled(env, target, st, path) == Quarantine(env, u, path, Into(qdir, path));
      assert Quarantine(env, u, path, Into(qdir, path)).stats == u.stats;
    }
  }

  lemma FiledCounts(env: Env, st: State, path: string, dir: string, companion: Option<Companion>)
    requires !st.aborted
    ensures var s := Filed(env, st, path, dir, companion);
      && s.stats.processed == st.stats.processed && s.stats.noDate == st.stats.noDate
      && st.stats.copied <= s.stats.copied && st.stats.skipped <= s.stats.skipped
      && st.stats.exceptions <= s.stats.exceptions
      && (if s.aborted then Settled(st.stats) <= Settled(s.stats) <= Settled(st.stats) + 1
          else Settled(s.stats) == Settled(st.stats) + 1)
  {
    var after := CopyPrimary(env, st, path, Into(dir, path));
    if !after.aborted && companion.Some? {
      var s := CopyCompanion(env, after, companion.value.path, Join(dir, companion.value.name));
      assert s.stats == after.stats;
    }
  }

  /** Lines 309-396: a turn adds one to processCount and, unless an exception
      escapes first, one to exactly one of copyCount, skipCount,
      exceptionCount and nocreatedateCount; no counter ever goes down, and the
      companion copy adds to none. */
  lemma StepCountsOnce(env: Env, target: string, st: State, path: string)
    requires !st.aborted
    ensures var s := Step(env, target, st, path);
      && s.stats.processed == st.stats.processed + 1
      && st.stats.copied <= s.stats.copied && st.stats.skipped <= s.stats.skipped
      && st.stats.exceptions <= s.stats.exceptions && st.stats.noDate <= s.stats.noDate
      && (if s.aborted then Settled(st.stats) <= Settled(s.stats) <= Settled(st.stats) + 1
          else Settled(s.stats) == Settled(st.stats) + 1)
      && (Resolve(env, st.files, path).date.None? ==>
            s.stats == st.stats.(processed := st.stats.processed + 1, noDate := st.stats.noDate + 1))
      && (Resolve(env, st.files, path).date.Some? ==> s.stats.noDate == st.stats.noDate)
  {
    StepIsDispose(env, target, st, path);
    DisposeCounts(env, target, Started(st), path, Resolve(env, st.files, path));
  }

  /** The loop over n files processes each file once until an exception
      escapes, and keeps every processed file accounted for. */
  lemma {:induction false} RunAccounts(env: Env, target: string, existing: set<string>, paths: seq<string>)
    ensures var s := RunFrom(env, target, Initial(existing), paths);
      && Accounted(s)
      && s.stats.processed <= |paths|
      && (!s.aborted ==> s.stats.processed == |paths|)
  {
    if paths != [] {
      var prev := paths[..|paths| - 1];
      RunAccounts(env, target, existing, prev);
      var st := RunFrom(env, target, Initial(existing), prev);
      if !st.aborted {
        StepCountsOnce(env, target, st, paths[|paths| - 1]);
      }
    }
  }

  /** At the end of main: a run no exception escaped from has processed every
      selected file, and processCount equals the sum of the four outcome
      counters; otherwise at most the file being processed is missing from
      that sum. */
  lemma EveryFileCountedOnce(env: Env, target: string, walked: seq<string>, existing: set<string>)
    ensures var s := Sort(env, target, walked, existing);
      && (!s.aborted ==> s.stats.processed == |MediaFiles(walked)| == Settled(s.stats))
      && (s.aborted ==> s.stats.processed <= |MediaFiles(walked)| && Settled(s.stats) <= s.stats.processed <= Settled(s.stats) + 1)
  {
    if !env.mkdirFails(ProblemsDir(target)) {
      RunAccounts(env, target, existing, MediaFiles(walked));
    }
  }

  /** The destination files the copies of a log left behind. */
  function Written(log: seq<Attempt>): set<string>
  {
    if log == [] then {}
    else
      var last := log[|log| - 1];
      Written(log[..|log| - 1]) + if Leaves(last.outcome) then {last.dest} else {}
  }

  /** Every copy aimed at a file that did not exist at that moment, neither
      before the run nor left by an earlier copy; and the files are exactly
      those there before the run plus those the copies left. */
  predicate NeverOverwrote(existing: set<string>, st: State)
  {
    && st.files == existing + Written(st.log)
    && forall i | 0 <= i < |st.log| :: st.log[i].dest !in existing + Written(st.log[..i])
  }

  /** A copy made only when its destination is absent keeps the record. */
  lemma LogCopyKeeps(existing: set<string>, st: State, source: string, dest: string, o: CopyOutcome)
    requires NeverOverwrote(existing, st) && dest !in st.files
    ensures NeverOverwrote(existing, LogCopy(st, source, dest, o))
  {
    var log := LogCopy(st, source, dest, o).log;
    assert log[..|log| - 1] == st.log;
    forall i | 0 <= i < |st.log|
      ensures log[..i] == st.log[..i]
    {
    }
  }

  /** Lines 366-392 and 405-410: the three copies of a turn each look for the
      destination file first, so none of them overwrites. */
  lemma CopiesKeep(env: Env, existing: set<string>, st: State, source: string, dest: string)
    requires NeverOverwrote(existing, st)
    ensures NeverOverwrote(existing, CopyPrimary(env, st, source, dest))
    ensures NeverOverwrote(existing, CopyCompanion(env, st, source, dest))
    ensures NeverOverwrote(existing, Quarantine(env, st, source, dest))
  {
    if dest !in st.files {
      LogCopyKeeps(existing, st, source, dest, env.copy(source, dest));
    }
  }

  lemma FiledKeeps(env: Env, existing: set<string>, st: State, path: string, dir: string, companion: Option<Companion>)
    requires NeverOverwrote(existing, st)
    ensures NeverOverwrote(existing, Filed(env, st, path, dir, companion))
  {
    var dest := Into(dir, path);
    CopiesKeep(env, existing, st, path, dest);
    if companion.Some? {
      CopiesKeep(env, existing, CopyPrimary(env, st, path, dest), companion.value.path, Join(dir, companion.value.name));
    }
  }

  lemma UnfiledKeeps(env: Env, target: string, existing: set<string>, st: State, path: string)
    requires NeverOverwrote(existing, st)
    ensures NeverOverwrote(existing, Unfiled(env, target, st, path))
  {
    var qdir := QuarantineDir(target, Dirname(path));
    var u := Undated(st);
    assert u.files == st.files && u.log == st.log;
    if !env.mkdirFails(qdir) {
      assert Unfiled(env, target, st, path) == Quarantine(env, u, path, Into(qdir, path));
      CopiesKeep(env, existing, u, path, Into(qdir, path));
    }
  }

  lemma DisposeKeeps(env: Env, target: string, existing: set<string>, st: State, path: string, res: Resolution)
    requires res.date.Some? ==> Valid(res.date.value)
    requires NeverOverwrote(existing, st)
    ensures NeverOverwrote(existing, Dispose(env, target, st, path, res))
  {
    if res.date.Some? {
      var d := res.date.value;
      if env.mkdirFails(DestDir(target, d)) {
        assert Dispose(env, target, st, path, res) == st.(aborted := true);
      } else {
        assert Dispose(env, target, st, path, res) == Filed(env, st, path, DestDir(target, d), res.companion);
        FiledKeeps(env, existing, st, path, DestDir(target, d), res.companion);
      }
    } else {
      assert Dispose(env, target, st, path, res) == Unfiled(env, target, st, path);
      UnfiledKeeps(env, target, existing, st, path);
    }
  }

  lemma StepKeeps(env: Env, target: string, existing: set<string>, st: State, path: string)
    requires NeverOverwrote(existing, st)
    ensures NeverOverwrote(existing, Step(env, target, st, path))
  {
    if !st.aborted {
      StepIsDispose(env, target, st, path);
      DisposeKeeps(env, target, existing, Started(st), path, Resolve(env, st.files, path));
    }
  }

  lemma {:induction false} RunKeeps(env: Env, target: string, existing: set<string>, paths: seq<string>)
    ensures NeverOverwrote(existing, RunFrom(env, target, Initial(existing), paths))
  {
    if paths != [] {
      RunKeeps(env, target, existing, paths[..|paths| - 1]);
      StepKeeps(env, target, existing, RunFrom(env, target, Initial(existing), paths[..|paths| - 1]), paths[|paths| - 1]);
    }
  }

  /** A whole run never overwrites: each copy aimed at a file absent at that
      moment, no file was removed, and every file added is one a copy left. */
  lemma CopiesNeverOverwrite(env: Env, target: string, walked: seq<string>, existing: set<string>)
    ensures NeverOverwrote(existing, Sort(env, target, walked, existing))
  {
    if !env.mkdirFails(ProblemsDir(target)) {
      RunKeeps(env, target, existing, MediaFiles(walked));
    }
  }

  /** Where the loop puts a copy: under the source's own name, either in the
      dated folder of some valid date or in the mirror of the source's
      directory under exif_problems. */
  ghost predicate Placed(target: string, a: Attempt)
  {
    || (exists d: DateTime | Valid(d) :: a.dest == Into(DestDir(target, d), a.source))
    || a.dest == Into(QuarantineDir(target, Dirname(a.source)), a.source)
  }

  ghost predicate AllPlaced(target: string, log: seq<Attempt>)
  {
    forall i | 0 <= i < |log| :: Placed(target, log[i])
  }

  lemma LogCopyPlaced(target: string, st: State, source: string, dest: string, o: CopyOutcome)
    requires AllPlaced(target, st.log) && Placed(target, Attempt(source, dest, o))
    ensures AllPlaced(target, LogCopy(st, source, dest, o).log)
  {
    var log := LogCopy(st, source, dest, o).log;
    assert log == st.log + [Attempt(source, dest, o)];
    forall i | 0 <= i < |log|
      ensures Placed(target, log[i])
    {
      if i < |st.log| {
        assert log[i] == st.log[i];
      }
    }
  }

  lemma PrimaryPlaced(env: Env, target: string, st: State, path: string, d: DateTime)
    requires Valid(d) && AllPlaced(target, st.log)
    ensures AllPlaced(target, CopyPrimary(env, st, path, Into(DestDir(target, d), path)).log)
  {
    var dest := Into(DestDir(target, d), path);
    if dest !in st.files {
      LogCopyPlaced(target, st, path, dest, env.copy(path, dest));
    }
  }

  lemma CompanionPlaced(env: Env, target: string, st: State, d: DateTime, c: Companion)
    requires Valid(d) && AllPlaced(target, st.log) && Basename(c.path) == c.name
    ensures AllPlaced(target, CopyCompanion(env, st, c.path, Join(DestDir(target, d), c.name)).log)
  {
    var cdest := Join(DestDir(target, d), c.name);
    if cdest !in st.files {
      assert cdest == Into(DestDir(target, d), c.path);
      LogCopyPlaced(target, st, c.path, cdest, env.copy(c.path, cdest));
    }
  }

  lemma FiledPlaced(env: Env, target: string, st: State, path: string, d: DateTime, companion: Option<Companion>)
    requires Valid(d) && AllPlaced(target, st.log)
    requires companion.Some? ==> Basename(companion.value.path) == companion.value.name
    ensures AllPlaced(target, Filed(env, st, path, DestDir(target, d), companion).log)
  {
    var dir := DestDir(target, d);
    var after := CopyPrimary(env, st, path, Into(dir, path));
    PrimaryPlaced(env, target, st, path, d);
    if !after.aborted && companion.Some? {
      CompanionPlaced(env, target, after, d, companion.value);
      assert Filed(env, st, path, dir, companion) == CopyCompanion(env, after, companion.value.path, Join(dir, companion.value.name));
    } else {
      assert Filed(env, st, path, dir, companion) == after;
    }
  }

  lemma UnfiledPlaced(env: Env, target: string, st: State, path: string)
    requires AllPlaced(target, st.log)
    ensures AllPlaced(target, Unfiled(env, target, st, path).log)
  {
    var dest := Into(QuarantineDir(target, Dirname(path)), path);
    if dest !in st.files {
      LogCopyPlaced(target, Undated(st), path, dest, env.copy(path, dest));
    }
  }

  lemma DisposePlaced(env: Env, target: string, st: State, path: string, res: Resolution)
    requires res.date.Some? ==> Valid(res.date.value)
    requires res.companion.Some? ==> Basename(res.companion.value.path) == res.companion.value.name
    requires AllPlaced(target, st.log)
    ensures AllPlaced(target, Dispose(env, target, st, path, res).log)
  {
    if res.date.Some? {
      var d := res.date.value;
      if env.mkdirFails(DestDir(target, d)) {
        assert Dispose(env, target, st, path, res).log == st.log;
      } else {
        assert Dispose(env, target, st, path, res) == Filed(env, st, path, DestDir(target, d), res.companion);
        FiledPlaced(env, target, st, path, d, res.companion);
      }
    } else {
      assert Dispose(env, target, st, path, res) == Unfiled(env, target, st, path);
      UnfiledPlaced(env, target, st, path);
    }
  }

  /** Lines 343-357, 378-380 and 397-404: each copy of a turn goes to the
      dated folder or to quarantine, under the copied file's own name (the
      companion's name is its basename, as it lies beside the video). */
  lemma StepPlaced(env: Env, target: string, st: State, path: string)
    requires AllPlaced(target, st.log)
    ensures AllPlaced(target, Step(env, target, st, path).log)
  {
    if !st.aborted {
      StepIsDispose(env, target, st, path);
      var res := Resolve(env, st.files, path);
      if res.companion.Some? {
        CompanionBesideVideo(path, st.files);
      }
      DisposePlaced(env, target, Started(st), path, res);
    }
  }

  lemma {:induction false} RunPlaced(env: Env, target: string, existing: set<string>, paths: seq<string>)
    ensures AllPlaced(target, RunFrom(env, target, Initial(existing), paths).log)
  {
    if paths != [] {
      RunPlaced(env, target, existing, paths[..|paths| - 1]);
      StepPlaced(env, target, RunFrom(env, target, Initial(existing), paths[..|paths| - 1]), paths[|paths| - 1]);
    }
  }

  /** Every copy a run makes lands in a fixed shape of path: the dated folder
      target/YYYY/Month/YYYY_MM_DD of a valid date or the quarantine mirror,
      under the copied file's own name. */
  lemma CopiesArePlaced(env: Env, target: string, walked: seq<string>, existing: set<string>)
    ensures AllPlaced(target, Sort(env, target, walked, existing).log)
  {
    if !env.mkdirFails(ProblemsDir(target)) {
      RunPlaced(env, target, existing, MediaFiles(walked));
    }
  }

  /** Every shutil.copy2 finishes. */
  ghost predicate ReliableCopy(env: Env)
  {
    forall source: string, dest: string :: env.copy(source, dest) == Copied
  }

  /** Where a second run over the result of a finished first run stands when
      the first stood at a: the same files processed, each copy or skip of
      the first run now a skip, nothing copied and the files those the first
      run ended with. */
  function Replayed(a: State, files: set<string>): State
  {
    State(files, Stats(a.stats.processed, 0, a.stats.copied + a.stats.skipped, 0, a.stats.noDate), [], false)
  }

  lemma StartedReplayed(a: State, files: set<string>)
    ensures Started(Replayed(a, files)) == Replayed(Started(a), files)
  {
  }

  lemma UndatedReplayed(a: State, files: set<string>)
    ensures Undated(Replayed(a, files)) == Replayed(Undated(a), files)
  {
  }

  lemma FiledReplay(env: Env, a: State, files: set<string>, path: string, dir: string, companion: Option<Companion>)
    requires ReliableCopy(env) && !a.aborted
    requires Filed(env, a, path, dir, companion).files <= files
    ensures !Filed(env, a, path, dir, companion).aborted
    ensures Filed(env, Replayed(a, files), path, dir, companion) == Replayed(Filed(env, a, path, dir, companion), files)
  {
    var dest := Into(dir, path);
    var after := CopyPrimary(env, a, path, dest);
    assert env.copy(path, dest) == Copied;
    assert dest in after.files && !after.aborted;
    var b := Replayed(a, files);
    var bafter := CopyPrimary(env, b, path, dest);
    assert bafter == Replayed(after, files);
    if companion.Some? {
      var cdest := Join(dir, companion.value.name);
      assert env.copy(companion.value.path, cdest) == Copied;
      var s := CopyCompanion(env, after, companion.value.path, cdest);
      assert cdest in s.files && s.stats == after.stats;
      assert CopyCompanion(env, bafter, companion.value.path, cdest) == bafter;
    }
  }

  /** With every copy finishing, an undated file's quarantine copy exists
      after its turn. */
  lemma UnfiledLeaves(env: Env, target: string, a: State, path: string)
    requires ReliableCopy(env)
    requires !Unfiled(env, target, a, path).aborted
    ensures Unfiled(env, target, a, path).stats == Undated(a).stats
    ensures Into(QuarantineDir(target, Dirname(path)), path) in Unfiled(env, target, a, path).files
  {
    var dest := Into(QuarantineDir(target, Dirname(path)), path);
    assert env.copy(path, dest) == Copied;
  }

  lemma UnfiledReplay(env: Env, target: string, a: State, files: set<string>, path: string)
    requires ReliableCopy(env)
    requires !Unfiled(env, target, a, path).aborted
    requires Unfiled(env, target, a, path).files <= files
    ensures Unfiled(env, target, Replayed(a, files), path) == Replayed(Unfiled(env, target, a, path), files)
  {
    UnfiledLeaves(env, target, a, path);
    UndatedReplayed(a, files);
    var qdir := QuarantineDir(target, Dirname(path));
    assert !env.mkdirFails(qdir);
    UnfiledPresent(env, target, Replayed(a, files), path);
    ReplayedStats(Unfiled(env, target, a, path), Undated(a), files);
  }

  /** An undated file whose quarantine copy already exists only counts. */
  lemma UnfiledPresent(env: Env, target: string, b: State, path: string)
    requires !env.mkdirFails(QuarantineDir(target, Dirname(path)))
    requires Into(QuarantineDir(target, Dirname(path)), path) in b.files
    ensures Unfiled(env, target, b, path) == Undated(b)
  {
  }

  lemma ReplayedStats(x: State, y: State, files: set<string>)
    requires x.stats == y.stats
    ensures Replayed(x, files) == Replayed(y, files)
  {
  }

  lemma DisposeReplay(env: Env, target: string, a: State, files: set<string>, path: string, res: Resolution)
    requires res.date.Some? ==> Valid(res.date.value)
    requires ReliableCopy(env) && !a.aborted
    requires !Dispose(env, target, a, path, res).aborted
    requires Dispose(env, target, a, path, res).files <= files
    ensures Dispose(env, target, Replayed(a, files), path, res) == Replayed(Dispose(env, target, a, path, res), files)
  {
    if res.date.Some? {
      FiledReplay(env, a, files, path, DestDir(target, res.date.value), res.companion);
    } else {
      UnfiledReplay(env, target, a, files, path);
    }
  }

  lemma StepReplayed(env: Env, target: string, a: State, files: set<string>, path: string)
    requires !a.aborted
    requires Resolve(env, a.files, path) == Resolve(env, files, path)
    ensures Step(env, target, Replayed(a, files), path)
      == Dispose(env, target, Replayed(Started(a), files), path, Resolve(env, a.files, path))
  {
    StepIsDispose(env, target, Replayed(a, files), path);
    StartedReplayed(a, files);
  }

  lemma StepReplay(env: Env, target: string, a: State, files: set<string>, path: string)
    requires ReliableCopy(env) && !a.aborted
    requires !Step(env, target, a, path).aborted
    requires Step(env, target, a, path).files <= files
    requires Resolve(env, a.files, path) == Resolve(env, files, path)
    ensures Step(env, target, Replayed(a, files), path) == Replayed(Step(env, target, a, path), files)
  {
    StepIsDispose(env, target, a, path);
    StepReplayed(env, target, a, files, path);
    DisposeReplay(env, target, Started(a), files, path, Resolve(env, a.files, path));
  }

  lemma DisposeGrows(env: Env, target: string, st: State, path: string, res: Resolution)
    requires res.date.Some? ==> Valid(res.date.value)
    ensures st.files <= Dispose(env, target, st, path, res).files
  {
  }

  /** A turn removes no file. */
  lemma StepGrows(env: Env, target: string, st: State, path: string)
    ensures st.files <= Step(env, target, st, path).files
  {
    if !st.aborted {
      StepIsDispose(env, target, st, path);
      DisposeGrows(env, target, Started(st), path, Resolve(env, st.files, path));
    }
  }

  lemma {:induction false} RunGrowsFrom(env: Env, target: string, st: State, paths: seq<string>)
    ensures st.files <= RunFrom(env, target, st, paths).files
  {
    if paths != [] {
      RunGrowsFrom(env, target, st, paths[..|paths| - 1]);
      StepGrows(env, target, RunFrom(env, target, st, paths[..|paths| - 1]), paths[|paths| - 1]);
    }
  }

  lemma {:induction false} RunGrows(env: Env, target: string, st: State, paths: seq<string>, k: nat)
    requires k <= |paths|
    ensures RunFrom(env, target, st, paths[..k]).files <= RunFrom(env, target, st, paths).files
    decreases |paths| - k
  {
    if k < |paths| {
      RunFromNext(env, target, st, paths, k);
      StepGrows(env, target, RunFrom(env, target, st, paths[..k]), paths[k]);
      RunGrows(env, target, st, paths, k + 1);
    } else {
      assert paths[..k] == paths;
    }
  }

  /** A run that ends without an exception had none at any point. */
  lemma NotAbortedBefore(env: Env, target: string, st: State, paths: seq<string>, k: nat)
    requires k <= |paths| && !RunFrom(env, target, st, paths).aborted
    ensures !RunFrom(env, target, st, paths[..k]).aborted
  {
    if RunFrom(env, target, st, paths[..k]).aborted {
      AbortedStays(env, target, st, paths, k);
    }
  }

  /** The date a file resolves to depends on the existing files only through
      the two companion candidates. */
  lemma ResolveAgrees(env: Env, a: set<string>, b: set<string>, path: string)
    requires CandidatePath(path, true) in a <==> CandidatePath(path, true) in b
    requires CandidatePath(path, false) in a <==> CandidatePath(path, false) in b
    ensures Resolve(env, a, path) == Resolve(env, b, path)
  {
    FindCompanionAgrees(path, a, b);
  }

  /** Lines 329-340 and 378-392: an .avi dated from its preview's tags goes
      to the folder of that date, and the preview follows it into the same
      folder; the turn logs nothing else. The preview is copied only after
      the video, and only when no IOError escaped from the video's copy. */
  lemma PreviewFollowsVideo(env: Env, target: string, st: State, path: string, d: DateTime, c: Companion)
    requires !st.aborted
    requires Resolve(env, st.files, path) == Resolution(Some(d), Some(c))
    requires !env.mkdirFails(DestDir(target, d))
    ensures CreateDate(env.exifTags(c.path)) == Some(d)
    ensures var dir := DestDir(target, d);
      var vdest := Into(dir, path);
      var cdest := Join(dir, c.name);
      var video := Attempt(path, vdest, env.copy(path, vdest));
      var preview := Attempt(c.path, cdest, env.copy(c.path, cdest));
      var s := Step(env, target, st, path);
      && vdest != cdest
      && s.log in {st.log, st.log + [video], st.log + [preview], st.log + [video, preview]}
      && (vdest !in st.files && env.copy(path, vdest) == Copied && cdest !in st.files ==>
            s.log == st.log + [video, preview])
      && (vdest !in st.files && env.copy(path, vdest).Raised? && env.copy(path, vdest).error == IoError ==>
            s.log == st.log + [video] && s.aborted)
  {
    var dir := DestDir(target, d);
    PreviewNameDiffers(env, st.files, path, c);
    DistinctJoins(dir, Basename(path), c.name);
    StepIsDispose(env, target, st, path);
    assert Step(env, target, st, path) == Filed(env, Started(st), path, dir, Some(c));
    FiledLog(env, Started(st), path, dir, c);
  }

  /** The log of a dated file with a companion: the file's copy, then the
      companion's, each left out when its destination exists, and the
      companion's also when the file's copy raised IOError. */
  lemma FiledLog(env: Env, st: State, path: string, dir: string, c: Companion)
    requires !st.aborted
    requires Into(dir, path) != Join(dir, c.name)
    ensures var vdest := Into(dir, path);
      var cdest := Join(dir, c.name);
      var video := Attempt(path, vdest, env.copy(path, vdest));
      var preview := Attempt(c.path, cdest, env.copy(c.path, cdest));
      var s := Filed(env, st, path, dir, Some(c));
      && s.log in {st.log, st.log + [video], st.log + [preview], st.log + [video, preview]}
      && (vdest !in st.files && env.copy(path, vdest) == Copied && cdest !in st.files ==>
            s.log == st.log + [video, preview])
      && (vdest !in st.files && env.copy(path, vdest).Raised? && env.copy(path, vdest).error == IoError ==>
            s.log == st.log + [video] && s.aborted)
  {
    var vdest := Into(dir, path);
    var cdest := Join(dir, c.name);
    var video := Attempt(path, vdest, env.copy(path, vdest));
    var preview := Attempt(c.path, cdest, env.copy(c.path, cdest));
    var after := CopyPrimary(env, st, path, vdest);
    if !after.aborted {
      var s := CopyCompanion(env, after, c.path, cdest);
      assert Filed(env, st, path, dir, Some(c)) == s;
      if cdest !in after.files {
        assert s.log == after.log + [preview];
        if vdest !in st.files {
          assert after.log + [preview] == st.log + [video, preview];
        }
      }
    }
  }

  /** The video's own name ends in "avi" whatever the case, its preview's in
      "THM" or "thm", so the two never coincide. */
  lemma PreviewNameDiffers(env: Env, files: set<string>, path: string, c: Companion)
    requires Resolve(env, files, path).companion == Some(c)
    ensures Basename(path) != [] && c.name != [] && NoSlash(c.name) && Basename(path) != c.name
  {
    var upper := CandidatePath(path, true) in files;
    ResolvedCompanion(env, files, path, c);
    CandidateNamePlain(path, upper);
    AviIsNoCandidate(path, upper);
  }

  lemma ResolvedCompanion(env: Env, files: set<string>, path: string, c: Companion)
    requires Resolve(env, files, path).companion == Some(c)
    ensures KindOf(Basename(path)) == Avi
    ensures c.name == CandidateName(path, CandidatePath(path, true) in files)
  {
  }

  lemma AviIsNoCandidate(path: string, upper: bool)
    requires KindOf(Basename(path)) == Avi
    ensures Basename(path) != [] && Basename(path) != CandidateName(path, upper)
  {
    var b := Basename(path);
    var n := CandidateName(path, upper);
    AviLastLetter(b);
    CandidateNameLastLetter(path, upper);
    assert b[|b| - 1] != n[|n| - 1];
  }

  lemma AviLastLetter(b: string)
    requires KindOf(b) == Avi
    ensures b != [] && (b[|b| - 1] == 'i' || b[|b| - 1] == 'I')
  {
    assert EndsWith(Lower(b), "avi");
    assert Lower(b)[|b| - 1] == 'i';
  }

  /** Different plain names joined onto one directory give different paths. */
  lemma DistinctJoins(dir: string, x: string, y: string)
    requires x != [] && NoSlash(x) && y != [] && NoSlash(y) && x != y
    ensures Join(dir, x) != Join(dir, y)
  {
    BasenameOfJoin(dir, x);
    BasenameOfJoin(dir, y);
  }

  /** The first run's later copies touch no companion candidate of a listed
      file, so each file resolves alike at its turn of the first run and
      against the files the first run left. */
  lemma ResolveStable(env: Env, target: string, existing: set<string>, paths: seq<string>, j: nat)
    requires j < |paths|
    requires forall f, up: bool | f in paths ::
      CandidatePath(f, up) in RunFrom(env, target, Initial(existing), paths).files ==> CandidatePath(f, up) in existing
    ensures Resolve(env, RunFrom(env, target, Initial(existing), paths[..j]).files, paths[j])
      == Resolve(env, RunFrom(env, target, Initial(existing), paths).files, paths[j])
  {
    RunGrows(env, target, Initial(existing), paths, j);
    RunGrowsFrom(env, target, Initial(existing), paths[..j]);
    assert paths[j] in paths;
    ResolveAgrees(env, RunFrom(env, target, Initial(existing), paths[..j]).files, RunFrom(env, target, Initial(existing), paths).files, paths[j]);
  }

  /** The facts about turn j of a first run that ended without an exception
      which its replay needs. */
  lemma ReplayPremises(env: Env, target: string, existing: set<string>, paths: seq<string>, j: nat)
    requires j < |paths|
    requires !RunFrom(env, target, Initial(existing), paths).aborted
    ensures var a := RunFrom(env, target, Initial(existing), paths[..j]);
      && !a.aborted && !Step(env, target, a, paths[j]).aborted
      && Step(env, target, a, paths[j]).files <= RunFrom(env, target, Initial(existing), paths).files
  {
    RunFromNext(env, target, Initial(existing), paths, j);
    NotAbortedBefore(env, target, Initial(existing), paths, j);
    NotAbortedBefore(env, target, Initial(existing), paths, j + 1);
    RunGrows(env, target, Initial(existing), paths, j + 1);
  }

  /** The first k turns of a second run over the files a finished first run
      left replay the first run's first k turns as skips. */
  lemma {:induction false} RunReplay(env: Env, target: string, existing: set<string>, paths: seq<string>, k: nat)
    requires ReliableCopy(env) && k <= |paths|
    requires !RunFrom(env, target, Initial(existing), paths).aborted
    requires forall f, up: bool | f in paths ::
      CandidatePath(f, up) in RunFrom(env, target, Initial(existing), paths).files ==> CandidatePath(f, up) in existing
    ensures var files := RunFrom(env, target, Initial(existing), paths).files;
      RunFrom(env, target, Initial(files), paths[..k]) == Replayed(RunFrom(env, target, Initial(existing), paths[..k]), files)
  {
    var files := RunFrom(env, target, Initial(existing), paths).files;
    if k == 0 {
      assert paths[..0] == [];
    } else {
      var j := k - 1;
      RunReplay(env, target, existing, paths, j);
      RunFromNext(env, target, Initial(existing), paths, j);
      RunFromNext(env, target, Initial(files), paths, j);
      ReplayPremises(env, target, existing, paths, j);
      ResolveStable(env, target, existing, paths, j);
      StepReplay(env, target, RunFrom(env, target, Initial(existing), paths[..j]), files, paths[j]);
    }
  }

  /** Lines 366-373 make sorting idempotent: when every copy finishes and the
      first run neither aborts nor writes a companion candidate of a listed
      video, a second run over the files the first left copies nothing,
      changes no file, and skips every file the first copied or skipped. Its
      walk must select the same media files as the first one: os.walk is
      repeated over the source (lines 291-296), so this holds when the
      target lies outside the source tree and nothing else changed there. */
  lemma SecondRunCopiesNothing(env: Env, target: string, walked: seq<string>, rewalked: seq<string>, existing: set<string>)
    requires ReliableCopy(env)
    requires !Sort(env, target, walked, existing).aborted
    requires forall f, up: bool | f in MediaFiles(walked) ::
      CandidatePath(f, up) in Sort(env, target, walked, existing).files ==> CandidatePath(f, up) in existing
    requires MediaFiles(rewalked) == MediaFiles(walked)
    ensures var first := Sort(env, target, walked, existing);
      var second := Sort(env, target, rewalked, first.files);
      && !second.aborted && second.files == first.files && second.log == []
      && second.stats.processed == first.stats.processed
      && second.stats.copied == 0 && second.stats.exceptions == 0
      && second.stats.skipped == first.stats.copied + first.stats.skipped
      && second.stats.noDate == first.stats.noDate
  {
    var paths := MediaFiles(walked);
    RunReplay(env, target, existing, paths, |paths|);
    assert paths[..|paths|] == paths;
    var first := Sort(env, target, walked, existing);
    assert Sort(env, target, rewalked, first.files) == Sort(env, target, walked, first.files);
  }

  /** No metadata anywhere, every copy finishes, every directory can be made. */
  function Bare(): Env
  {
    Env(p => [], p => None, (source, dest) => Copied, dir => false)
  }

  /** Why the second walk must not see the first run's copies: with the
      target src/out inside the source src, an undated src/name.jpg is
      quarantined to src/out/exif_problems/<src>/name.jpg, which lies under
      src and is a media file, so the next walk lists it; processing it
      quarantines it once more, one level deeper. */
  lemma TargetInsideSourceCopiesAgain(src: string, name: string, st: State)
    requires |src| > 1 && src[0] == '/' && src[1] != '/' && src[|src| - 1] != '/'
    requires name != [] && NoSlash(name) && EndsWith(Lower(name), "jpg")
    requires !st.aborted
    ensures var target := src + "/out";
      var qdir := target + "/exif_problems/" + src[1..];
      var q := qdir + "/" + name;
      var again := Into(QuarantineDir(target, qdir), q);
      && Into(QuarantineDir(target, Dirname(src + "/" + name)), src + "/" + name) == q
      && q[..|src| + 1] == src + "/"
      && IsMedia(q)
      && again == target + "/exif_problems/" + qdir[1..] + "/" + name
      && (again !in st.files ==> Step(Bare(), target, st, q).log == st.log + [Attempt(q, again, Copied)])
  {
    var target := src + "/out";
    var qdir := target + "/exif_problems/" + src[1..];
    var q := qdir + "/" + name;
    FirstQuarantineInside(src, name);
    FirstQuarantineUnderSource(src, name);
    QuarantinedIsMedia(qdir, name);
    QuarantineAgain(src, name);
    SplitPath(qdir, name);
    UndatedStepQuarantines(target, st, q);
  }

  /** The first run quarantines src/name to src/out/exif_problems/<src>/name. */
  lemma FirstQuarantineInside(src: string, name: string)
    requires |src| > 1 && src[0] == '/' && src[1] != '/' && src[|src| - 1] != '/'
    requires name != [] && NoSlash(name)
    ensures var q := src + "/out" + "/exif_problems/" + src[1..] + "/" + name;
      Into(QuarantineDir(src + "/out", Dirname(src + "/" + name)), src + "/" + name) == q
  {
    var qdir := src + "/out" + "/exif_problems/" + src[1..];
    SourceQuarantine(src);
    assert qdir[|qdir| - 1] == src[|src| - 1];
    QuarantineInto(src, name, qdir);
  }

  /** That copy lies under src, where the next walk finds it. */
  lemma FirstQuarantineUnderSource(src: string, name: string)
    requires |src| > 1
    ensures var q := src + "/out" + "/exif_problems/" + src[1..] + "/" + name;
      q[..|src| + 1] == src + "/"
  {
    StartsWithSlash(src, "out" + "/exif_problems/" + src[1..] + "/" + name);
    assert src + "/out" + "/exif_problems/" + src[1..] + "/" + name == src + "/" + ("out" + "/exif_problems/" + src[1..] + "/" + name);
  }

  /** The quarantine directory of src itself under src/out. */
  lemma SourceQuarantine(src: string)
    requires |src| > 1 && src[0] == '/' && src[1] != '/' && src[|src| - 1] != '/'
    ensures QuarantineDir(src + "/out", src) == src + "/out" + "/exif_problems/" + src[1..]
  {
    assert src == "/" + src[1..];
    QuarantineOf(src + "/out", src[1..]);
  }

  /** src/name goes into the quarantine directory of src under its own name. */
  lemma QuarantineInto(src: string, name: string, qdir: string)
    requires |src| > 1 && src[0] == '/' && src[1] != '/' && src[|src| - 1] != '/'
    requires name != [] && NoSlash(name)
    requires QuarantineDir(src + "/out", src) == qdir && qdir != [] && qdir[|qdir| - 1] != '/'
    ensures Into(QuarantineDir(src + "/out", Dirname(src + "/" + name)), src + "/" + name) == qdir + "/" + name
  {
    SplitPath(src, name);
    SplitPath(qdir, name);
  }

  lemma StartsWithSlash(a: string, b: string)
    ensures (a + "/" + b)[..|a| + 1] == a + "/"
  {
  }

  /** A file named like a photo is a media file wherever it lies. */
  lemma QuarantinedIsMedia(dir: string, name: string)
    requires |name| >= 3 && EndsWith(Lower(name), "jpg")
    ensures IsMedia(dir + "/" + name)
  {
    LowerSuffix(dir + "/", name);
    assert EndsWith(Lower(dir + "/" + name), MediaExtensions[0]);
  }

  /** Its own quarantine directory is the mirror of the first one. */
  lemma QuarantineAgain(src: string, name: string)
    requires |src| > 1 && src[0] == '/' && src[1] != '/' && src[|src| - 1] != '/'
    requires name != [] && NoSlash(name)
    ensures var target := src + "/out";
      var qdir := target + "/exif_problems/" + src[1..];
      Into(QuarantineDir(target, qdir), qdir + "/" + name) == target + "/exif_problems/" + qdir[1..] + "/" + name
  {
    var target := src + "/out";
    var qdir := target + "/exif_problems/" + src[1..];
    assert qdir[|qdir| - 1] == src[|src| - 1];
    SplitPath(qdir, name);
    assert qdir == "/" + qdir[1..];
    QuarantineOf(target, qdir[1..]);
    var qqdir := target + "/exif_problems/" + qdir[1..];
    assert qqdir[|qqdir| - 1] == src[|src| - 1];
    SplitPath(qqdir, name);
  }

  /** Without metadata a photo's turn is one quarantine copy, when its
      quarantine file is absent. */
  lemma UndatedStepQuarantines(target: string, st: State, q: string)
    requires !st.aborted && EndsWith(Lower(Basename(q)), "jpg")
    ensures var again := Into(QuarantineDir(target, Dirname(q)), q);
      again !in st.files ==> Step(Bare(), target, st, q).log == st.log + [Attempt(q, again, Copied)]
  {
    JpgIsPhoto(Basename(q));
    BareLeavesUndated(st.files, q);
    var again := Into(QuarantineDir(target, Dirname(q)), q);
    StepIsDispose(Bare(), target, st, q);
    assert Step(Bare(), target, st, q) == Unfiled(Bare(), target, Started(st), q);
    if again !in st.files {
      assert Unfiled(Bare(), target, Started(st), q) == Quarantine(Bare(), Undated(Started(st)), q, again);
    }
  }

  lemma JpgIsPhoto(b: string)
    requires EndsWith(Lower(b), "jpg")
    ensures KindOf(b) == Photo
  {
    var l := Lower(b);
    assert l[|l| - 1] == 'g';
  }

  /** With no tags at all, a photo has no date. */
  lemma BareLeavesUndated(files: set<string>, q: string)
    requires KindOf(Basename(q)) == Photo
    ensures Resolve(Bare(), files, q) == Resolution(None, None)
  {
    assert CreateDate([]) == None;
  }

  /** Lower-casing keeps a suffix's lower-cased form at the end. */
  lemma LowerSuffix(a: string, b: string)
    requires |b| >= 3
    ensures Lower(a + b)[|a + b| - 3..] == Lower(b)[|b| - 3..]
  {
  }

  /** d + "/" + n splits back into d and n. */
  lemma SplitPath(d: string, n: string)
    requires d != [] && d[|d| - 1] != '/' && n != [] && NoSlash(n)
    ensures Join(d, n) == d + "/" + n
    ensures Dirname(d + "/" + n) == d && Basename(d + "/" + n) == n
  {
    DirnameOfJoin(d, n);
    BasenameOfJoin(d, n);
  }

  /** The quarantine directory of the directory "/" + r under target. */
  lemma QuarantineOf(target: string, r: string)
    requires target != [] && target[|target| - 1] != '/' && r != [] && r[0] != '/'
    ensures QuarantineDir(target, "/" + r) == target + "/exif_problems/" + r
  {
    TrimOneSlash("/" + r);
    var p := ProblemsDir(target);
    ProblemsBeside(target);
    JoinRelative(p, r);
    assert (target + "/exif_problems") + "/" + r == target + "/exif_problems/" + r;
  }

  lemma ProblemsBeside(target: string)
    requires target != [] && target[|target| - 1] != '/'
    ensures ProblemsDir(target) == target + "/exif_problems"
  {
    JoinRelative(target, "exif_problems");
    assert target + "/" + "exif_problems" == target + "/exif_problems";
  }
}

=== FILE: tags.dfy ===
/** Choosing the capture-time string among the tags a metadata reader
    returns (get_create_date, get_pil_create_date) and normalising it; also
    the parsing tail of the container-metadata reader. */
module Tags {
  import opened Wrappers
  import opened Text
  import opened Dates

  /** A tag value as the two readers hand it over: the Exif tag reader gives
      tag records whose `.values` holds the text; the image library gives
      the text itself, a string that has no `.values` and that `.strip()`s. */
  datatype TagValue = Text(text: string) | Record(values: string)

  /** A tag dictionary as its (key, value) pairs in iteration order. */
  type TagMap = seq<(string, TagValue)>

  /** The key the Exif tag reader files the Exif 2.3 DateTimeOriginal tag
      (0x9003) under. */
  const ExactKey: string := "EXIF DateTimeOriginal"

  /** The name the image library's tag table gives the same tag. */
  const TagName: string := "DateTimeOriginal"

  /** A key whose name contains "DateTimeOriginal". */
  predicate Matches(entry: (string, TagValue))
  {
    Contains(entry.0, TagName)
  }

  /** tags[key], with None for the KeyError. */
  function Lookup(tags: TagMap, key: string): (r: Option<TagValue>)
    ensures r.None? <==> forall i :: 0 <= i < |tags| ==> tags[i].0 != key
    ensures r.Some? ==> exists i :: 0 <= i < |tags| && tags[i] == (key, r.value)
  {
    if tags == [] then None
    else if tags[0].0 == key then Some(tags[0].1)
    else
      var r := Lookup(tags[1..], key);
      assert forall i :: 1 <= i < |tags| ==> tags[i] == tags[1..][i - 1];
      r
  }

  /** How the scan of get_pil_create_date ends: no key matched, the last
      matching key held the given stripped text, or `.strip()` was called on
      a tag record and raised. */
  datatype Scan = NoMatch | Found(text: string) | Raised

  /** get_pil_create_date: walk the entries in order; each matching key
      overwrites the result with its stripped value, and the first matching
      tag record aborts the walk with an exception. */
  function LastOriginal(tags: TagMap): Scan
  {
    if tags == [] then NoMatch
    else
      var prev := LastOriginal(tags[..|tags| - 1]);
      var (k, v) := tags[|tags| - 1];
      if prev.Raised? then Raised
      else if !Contains(k, TagName) then prev
      else match v
        case Text(t) => Found(Strip(t))
        case Record(_) => Raised
  }

  /** Entry i is the last one whose key matches. */
  predicate LastMatchAt(tags: TagMap, i: int)
  {
    0 <= i < |tags| && Matches(tags[i]) && forall j :: i < j < |tags| ==> !Matches(tags[j])
  }

  /** Some matching key holds a tag record. */
  predicate MatchingRecord(tags: TagMap)
  {
    exists i :: 0 <= i < |tags| && Matches(tags[i]) && tags[i].1.Record?
  }

  /** The scan raises exactly when a matching key holds a tag record, finds
      nothing exactly when no key matches, and otherwise yields the stripped
      text of the LAST matching key. */
  lemma {:induction false} LastOriginalSpec(tags: TagMap)
    ensures LastOriginal(tags) == Raised <==> MatchingRecord(tags)
    ensures LastOriginal(tags) == NoMatch <==> forall i :: 0 <= i < |tags| ==> !Matches(tags[i])
    ensures forall i :: LastMatchAt(tags, i) && !MatchingRecord(tags) ==>
              LastOriginal(tags) == Found(Strip(tags[i].1.text))
  {
    if tags != [] {
      var init := tags[..|tags| - 1];
      LastOriginalSpec(init);
      assert forall i :: 0 <= i < |init| ==> init[i] == tags[i];
      if MatchingRecord(init) {
        assert MatchingRecord(tags);
      }
      if MatchingRecord(tags) && !Matches(tags[|tags| - 1]) {
        assert MatchingRecord(init);
      }
      if MatchingRecord(tags) && !tags[|tags| - 1].1.Record? {
        assert MatchingRecord(init);
      }
      forall i | LastMatchAt(tags, i) && !MatchingRecord(tags)
        ensures LastOriginal(tags) == Found(Strip(tags[i].1.text))
      {
        if i < |tags| - 1 {
          assert LastMatchAt(init, i);
          assert !MatchingRecord(init);
        }
      }
    }
  }

  /** The scan as the source writes it: a loop that reassigns its result. */
  method ScanDateTimeOriginal(tags: TagMap) returns (r: Scan)
    ensures r == LastOriginal(tags)
  {
    r := NoMatch;
    var i := 0;
    while i < |tags|
      invariant 0 <= i <= |tags|
      invariant r == LastOriginal(tags[..i]) && !r.Raised?
    {
      assert tags[..i + 1][..i] == tags[..i];
      var (k, v) := tags[i];
      if Contains(k, TagName) {
        match v
        case Text(t) =>
          r := Found(Strip(t));
        case Record(_) =>
          r := Raised;
          RaisedStays(tags, i + 1);
          assert tags[..|tags|] == tags;
          return;
      }
      i := i + 1;
    }
    assert tags[..i] == tags;
  }

  /** Once the scan has raised, later entries do not matter. */
  lemma {:induction false} RaisedStays(tags: TagMap, n: nat)
    requires n <= |tags| && LastOriginal(tags[..n]) == Raised
    ensures LastOriginal(tags) == Raised
    decreases |tags| - n
  {
    if n < |tags| {
      assert tags[..n + 1][..n] == tags[..n];
      RaisedStays(tags, n + 1);
    } else {
      assert tags[..n] == tags;
    }
  }

  /** The date_str of get_create_date: the `.values` of the exact key, or,
      when that lookup raises (no such key, or a plain string value), what
      the scan found. */
  function RawCreateDate(tags: TagMap): (r: Option<string>)
    ensures Lookup(tags, ExactKey).Some? && Lookup(tags, ExactKey).value.Record? ==>
      r == Some(Lookup(tags, ExactKey).value.values)
    ensures r.None? <==>
      && !(Lookup(tags, ExactKey).Some? && Lookup(tags, ExactKey).value.Record?)
      && (MatchingRecord(tags) || forall i :: 0 <= i < |tags| ==> !Matches(tags[i]))
  {
    LastOriginalSpec(tags);
    match Lookup(tags, ExactKey)
    case Some(Record(v)) => Some(v)
    case _ =>
      match LastOriginal(tags)
      case Found(t) => Some(t)
      case _ => None
  }

  /** get_create_date: the normalised capture time, or None; it never raises. */
  function CreateDate(tags: TagMap): (r: Option<DateTime>)
    ensures r.Some? ==> Valid(r.value)
  {
    match RawCreateDate(tags)
    case Some(s) => if s != "" then Normalize(s) else None
    case None => None
  }

  /** The exact Exif key, when the tag reader produced it, decides alone. */
  lemma ExactKeyDecides(tags: TagMap, v: string, d: DateTime)
    requires Lookup(tags, ExactKey) == Some(Record(v))
    ensures CreateDate(tags) == Some(d) <==> Valid(d) && (v == Render(d, ':') || v == Render(d, '-'))
  {
    NormalizeExact(v, d);
  }

  /** Otherwise the last key containing "DateTimeOriginal" decides, with its
      value stripped of surrounding whitespace. */
  lemma LastMatchDecides(tags: TagMap, i: int, d: DateTime)
    requires !Lookup(tags, ExactKey).Some? || !Lookup(tags, ExactKey).value.Record?
    requires LastMatchAt(tags, i) && !MatchingRecord(tags)
    ensures tags[i].1.Text?
    ensures var s := Strip(tags[i].1.text);
      CreateDate(tags) == Some(d) <==> Valid(d) && (s == Render(d, ':') || s == Render(d, '-'))
  {
    LastOriginalSpec(tags);
    NormalizeExact(Strip(tags[i].1.text), d);
  }

  /** With no key containing "DateTimeOriginal" there is no date. */
  lemma NoMatchingKeyNoDate(tags: TagMap)
    requires forall i :: 0 <= i < |tags| ==> !Matches(tags[i])
    ensures CreateDate(tags) == None
  {
    assert OccursAt(ExactKey, TagName, 5);
    LastOriginalSpec(tags);
  }

  /** A tag record under a matching key other than the exact one makes the
      scan raise, and get_create_date then reports no date. */
  lemma MatchingRecordNoDate(tags: TagMap)
    requires !Lookup(tags, ExactKey).Some? || !Lookup(tags, ExactKey).value.Record?
    requires MatchingRecord(tags)
    ensures CreateDate(tags) == None
  {
    LastOriginalSpec(tags);
  }

  /** The parsing tail of get_hachoir_create_date: the text of the first
      creation_date item (None when the container reader had no parser, no
      metadata or no such item), then the same two layouts. */
  function ContainerDate(raw: Option<string>): (r: Option<DateTime>)
    ensures r.Some? ==> Valid(r.value)
  {
    match raw
    case None => None
    case Some(s) => if s != "" then Normalize(s) else None
  }

  /** The container path accepts exactly the two renderings of a valid date. */
  lemma ContainerDateExact(raw: Option<string>, d: DateTime)
    ensures ContainerDate(raw) == Some(d) <==>
      raw.Some? && Valid(d) && (raw.value == Render(d, ':') || raw.value == Render(d, '-'))
  {
    if raw.Some? {
      NormalizeExact(raw.value, d);
    }
  }
}

=== FILE: text.dfy ===
/** The few string operations of Python's str that the sorter relies on,
    for byte strings in the C locale (ASCII only). */
module Text {

  /** str.lower() on one character: only 'A'..'Z' change. */
  function LowerChar(c: char): char
  {
    if 'A' <= c <= 'Z' then (c as int - 'A' as int + 'a' as int) as char else c
  }

  /** str.lower() */
  function Lower(s: string): string
  {
    seq(|s|, i requires 0 <= i < |s| => LowerChar(s[i]))
  }

  /** str.endswith(suffix) */
  predicate EndsWith(s: string, suffix: string)
  {
    |suffix| <= |s| && s[|s| - |suffix|..] == suffix
  }

  /** sub occurs in s starting at index i. */
  predicate OccursAt(s: string, sub: string, i: int)
  {
    0 <= i <= |s| - |sub| && s[i..i + |sub|] == sub
  }

  /** `sub in s` for strings: a substring test. */
  predicate Contains(s: string, sub: string)
  {
    exists i | 0 <= i <= |s| - |sub| :: OccursAt(s, sub, i)
  }

  /** The whitespace that str.strip() removes from a byte string. */
  predicate IsSpace(c: char)
  {
    c == ' ' || c == '\t' || c == '\n' || c == '\r' || c == '\U{0B}' || c == '\U{0C}'
  }

  /** The number of whitespace characters at the front of s. */
  function LeadingSpaces(s: string): (k: nat)
    ensures k <= |s|
    ensures forall i :: 0 <= i < k ==> IsSpace(s[i])
    ensures k < |s| ==> !IsSpace(s[k])
  {
    if s == [] || !IsSpace(s[0]) then 0 else 1 + LeadingSpaces(s[1..])
  }

  /** The number of whitespace characters at the back of s. */
  function TrailingSpaces(s: string): (k: nat)
    ensures k <= |s|
    ensures forall i :: |s| - k <= i < |s| ==> IsSpace(s[i])
    ensures k < |s| ==> !IsSpace(s[|s| - 1 - k])
  {
    if s == [] || !IsSpace(s[|s| - 1]) then 0 else 1 + TrailingSpaces(s[..|s| - 1])
  }

  /** str.strip(): the longest infix of s that neither starts nor ends with
      whitespace, obtained by dropping only whitespace from both ends. */
  function Strip(s: string): (r: string)
    ensures r == [] || (!IsSpace(r[0]) && !IsSpace(r[|r| - 1]))
    ensures exists i :: OccursAt(s, r, i)
              && (forall k :: 0 <= k < i ==> IsSpace(s[k]))
              && (forall k :: i + |r| <= k < |s| ==> IsSpace(s[k]))
  {
    var a := LeadingSpaces(s);
    var t := s[a..];
    var r := t[..|t| - TrailingSpaces(t)];
    assert OccursAt(s, r, a);
    r
  }
}

=== FILE: wrappers.dfy ===
/** The optional value used wherever the source returns None for "nothing found". */
module Wrappers {
  datatype Option<+T> = None | Some(value: T)
}
